=== FILE: README.md ===
# A Dafny model of the sheet check, CSV combiner, page chain and table cleaner

This project models the integer logic of two Python scripts and proves properties about it.

- `Lastname_Firstname_A2_challenge.py` has three parts:
  - the quality check of a defect sheet (`is_sheet_usable`);
  - the combination of keyed CSV files into one table (`combine_csv_files`);
  - the chain of HTML pages built from an index file (`make_html_files`).
- `Task1/dataframe_statistics.py` provides two things:
  - the console validators (`call_input_str`, `iterative_input_on_error`, `iterative_col_input_check`, `op3_x_iterative_loop`);
  - the interactive cleaning session (`op3_menu_items`).

The model is functional. It uses immutable datatypes and pure functions, and methods only where the source loops over console answers.

| file | module | what it holds |
|---|---|---|
| `wrappers.dfy` | `Wrappers` | `Option` and `Result` |
| `seqs.dfy` | `Seqs` | filtering, selection by positions, first-occurrence de-duplication, permutation facts |
| `sorting.dfy` | `Sorting` | sortedness under a total preorder, and an insertion sort |
| `text.dfy` | `Text` | Python's `str.strip()`, string ordering, and `int(text)` for ASCII decimal text |
| `sheet.dfy` | `SheetQC` | `is_sheet_usable` |
| `combine.dfy` | `CsvCombine` | `combine_csv_files` without its I/O |
| `pages.dfy` | `HtmlPages` | the page records and links of `make_html_files`, with POSIX `os.path.splitext` and `os.path.join` |
| `prompts.dfy` | `Prompts` | the console validators |
| `cleaning.dfy` | `Cleaning` | the five cleaning edits and the session that applies them |

Modelling conventions:

- **Console input.** Console input is a sequence of answers, one per prompt. A validator that runs out of answers returns `None`; the real `input()` would block or raise `EOFError` instead.
- **CSV files.** A CSV file is already parsed: a header plus rows, where each row maps column names to integers. An unreadable file, which the script skips in its `except`, is `None`.
- **Cells.** A cell of the cleaning table is an `Option<int>`, with `None` standing for NaN.
- **Row labels.** Every row carries its index label. Labels may repeat, as they do after `set_index` on a column with repeated values (lines 125-129 of `Task1/dataframe_statistics.py`).
- **Sheets.** A sheet is `seq<seq<int>>`.
- **Drop threshold.** `dropna(thresh=rows * 0.5)` keeps a column exactly when `2 * count >= rows`.
- **Key order.** `sort_index` orders keys ascending and puts a NaN key last.
- **Column order.** `sorted` orders column names by code point (`Text.LexLe`).

## Model

| member | source | states |
|---|---|---|
| `SheetQC.IsSheetUsable` | Lastname_Firstname_A2_challenge.py:11-50 | A sheet that is not n x n fails with `NotSquare`. A square sheet with any cell other than 0/1 fails with `NotBinary`. Otherwise the verdict is pass iff its 1-cells number at most 4 (at most 9 cells) or at most 8 (more than 9 cells). |
| `SheetQC.SumCountsDefects` | Lastname_Firstname_A2_challenge.py:40-47 | On a 0/1 sheet, `sheet.sum()` equals the number of defect cells. |
| `SheetQC.SquareCells` | Lastname_Firstname_A2_challenge.py:34 | An n x n sheet has n * n cells, the size the verdict branches on. |
| `SheetQC.ClearingDefectKeepsPass` | Lastname_Firstname_A2_challenge.py:39-50 | The verdict is monotone: turning a 1 into a 0 in a passing sheet keeps it passing. |
| `SheetQC.SmallSheetsPass` | Lastname_Firstname_A2_challenge.py:39-44 | Every valid 0x0, 1x1 or 2x2 sheet passes. |
| `SheetQC.DefectsBound` | Lastname_Firstname_A2_challenge.py:39-50 | A sheet never has more defects than cells. |
| `SheetQC.ExampleSheetRejected` | Lastname_Firstname_A2_challenge.py:199-200 | The demo sheet holds a 2, so the check fails with `NotBinary` instead of giving a verdict. |
| `CsvCombine.Combine` | Lastname_Firstname_A2_challenge.py:54-107 | The columns are the non-key header names of the files that have a `key` column and can be read, restricted to those with a value in at least half of the rows. Each appears once, in ascending order, and `key` is never one of them. The rows are exactly those of these files, each restricted to the kept columns, ordered by key with NaN keys last. |
| `CsvCombine.SortedNames` | Lastname_Firstname_A2_challenge.py:95-97 | The reindexed column list holds each column name of the appended frame exactly once, in ascending order. |
| `CsvCombine.Assemble` | Lastname_Firstname_A2_challenge.py:91-102 | Rows are sorted by key and are a permutation of the appended rows. A column survives iff its non-null count is at least half the row count, and no other column is removed. |
| `CsvCombine.AllColumnsAreColumnsOf` | Lastname_Firstname_A2_challenge.py:83-86 | The columns of the appended frame are exactly the non-key header names of the participating files. |
| `CsvCombine.IgnoresFilesWithoutKey` | Lastname_Firstname_A2_challenge.py:78-80 | A file without a `key` column, or one that cannot be read, can be removed from any position without changing the result. |
| `CsvCombine.FileOrderIrrelevant` | Lastname_Firstname_A2_challenge.py:64-70 | Any two orderings of the same files, such as two listings by `glob`, give the same columns and the same rows, up to order. |
| `CsvCombine.DenseOfPermutation` | Lastname_Firstname_A2_challenge.py:100-102 | The column filter depends only on which rows there are, not on their order. |
| `CsvCombine.AscendingUnique` | Lastname_Firstname_A2_challenge.py:96 | Two ascending orderings of the same names are equal, so the sorted column list is fully determined. |
| `CsvCombine.KeyOrderIsTotalPreorder` | Lastname_Firstname_A2_challenge.py:92 | The key order (numbers ascending, NaN last) is total and transitive. |
| `CsvCombine.LexOrderIsTotalPreorder` | Lastname_Firstname_A2_challenge.py:96 | The string order of `sorted` is total and transitive. |
| `HtmlPages.SplitExt` | Lastname_Firstname_A2_challenge.py:129 | `os.path.splitext` splits a path into a root and an extension that concatenate back to it. The extension is empty, or a dot followed by no dot and no slash. It is split off exactly when the root keeps a character other than a dot in its last path component. When nothing is split off, every dot of the last component has only dots before it there, as in `.bashrc`. |
| `HtmlPages.StemOfExtended` | Lastname_Firstname_A2_challenge.py:129-130 | When the last path component of `name` has a character other than a dot, and `ext` has no dot and no slash, splitting the extension off `name.ext` gives back `name` and `.ext`. Without these conditions it fails: `a.tar.gz` splits to `a.tar`, and `.csv` keeps `.csv` as its root. |
| `HtmlPages.Entries` | Lastname_Firstname_A2_challenge.py:123 | There is one entry per index line, that line stripped of surrounding whitespace. |
| `HtmlPages.Chain` | Lastname_Firstname_A2_challenge.py:140-161 | For n >= 2 entries, page i shows entry i and is named `stem + ".html"`, in index order. Page 0 has only a Next link, page n-1 only a Previous link, and every other page has both. Each link targets the neighbouring page's html name and carries its stem as its text. The data path, page path and plot path (`stem + ".png"`) are joined onto the directory. |
| `HtmlPages.MakePages` | Lastname_Firstname_A2_challenge.py:122-161 | An empty index gives no pages. A one-line index fails looking up the second entry (line 149). A longer index gives the chain of its stripped lines. |
| `HtmlPages.CsvEntryPage` | Lastname_Firstname_A2_challenge.py:128-131 | When the last path component of `name` has a character other than a dot, the entry `name.csv` gets the page `name.html`, headed `name`, and its neighbours link to it under those names. The entry `.csv` does not: its stem is `.csv`. |
| `Text.StripAround` | Task1/dataframe_statistics.py:60 | Stripping removes exactly the whitespace around a text that neither starts nor ends with whitespace. This holds both for the `str.isspace()` set of `str.strip()` and for the smaller set `int()` skips. |
| `Text.IntKeepsSeparators` | Task1/dataframe_statistics.py:18 | `int()` does not skip the ASCII separators U+001C to U+001F, though `str.strip()` does: `int` rejects U+001C followed by `7`. |
| `Text.ParseShowInt` | Task1/dataframe_statistics.py:18 | `int()` reads back any integer written in decimal when it has at most 4300 digits, and rejects a longer one. Surrounding whitespace is allowed: the C-locale spaces and non-ASCII Unicode spaces, but not U+001C to U+001F. |
| `Prompts.ReadChoiceOfNumber` | Task1/dataframe_statistics.py:11-21 | A typed number of at most 4300 digits, surrounded by whitespace that `int` skips, selects that number, and a longer one selects 0. Anything `int` rejects selects 0, which lies outside every menu range that starts at 1. |
| `Prompts.IterativeInputOnError` | Task1/dataframe_statistics.py:25-41 | The returned choice is in [min_op, max_op] and is the first in-range answer. If no answer is in range, nothing is returned. |
| `Prompts.IterativeColInputCheck` | Task1/dataframe_statistics.py:45-67 | The result is the first stripped answer that is blank or names a column. It is therefore blank or a column name. |
| `Prompts.ReadInteger` | Task1/dataframe_statistics.py:154-173 | The result is the value of the first non-blank answer that `int` accepts. Every earlier answer was rejected. |
| `Cleaning.DropSparseRows` | Task1/dataframe_statistics.py:206-211 | Exactly the rows with more missing cells than the threshold are dropped. The remaining rows keep their order, and the columns are unchanged. |
| `Cleaning.DropSparseRowsAsWritten` | Task1/dataframe_statistics.py:206-211 | The by-label drop keeps, in order, exactly the rows whose label's reported count is within the threshold. The reported count is that of the last row with the label. The columns are unchanged. |
| `Cleaning.MissingById` | Task1/dataframe_statistics.py:207 | `to_dict` of the per-row null counts has exactly the row labels as keys. Each key holds the null count of the last row with that label. |
| `Cleaning.SparseDropAgreesOnUniqueIds` | Task1/dataframe_statistics.py:207-211 | With unique row labels, the by-label drop is exactly the drop of the sparse rows. |
| `Cleaning.SparseDropMissesDuplicateIds` | Task1/dataframe_statistics.py:207-211 | With a repeated label, the by-label drop keeps a row that has a missing cell at threshold 0. |
| `Cleaning.FillMissing` | Task1/dataframe_statistics.py:219-220 | After the fill no cell is missing. Every present cell, every label and every column is unchanged, and each missing cell now holds the fill value. |
| `Cleaning.FilledTableKeepsAllRows` | Task1/dataframe_statistics.py:206-220 | After a fill, a drop with any threshold of at least 0 removes nothing. |
| `Cleaning.FillIsIdempotent` | Task1/dataframe_statistics.py:220 | Filling a filled table changes nothing. |
| `Cleaning.DropDuplicates` | Task1/dataframe_statistics.py:224-227 | The first occurrence of each distinct row is kept, in original order. No two kept rows are equal, and every original row has an equal kept row. The reported count is the original row count minus the remaining row count. A table without columns is returned whole with count 0, because pandas treats it as empty. |
| `Cleaning.DropColumn` | Task1/dataframe_statistics.py:236 | The chosen column disappears. The other columns and their cells stay, in order, and every row keeps its label. |
| `Cleaning.DropColumnChoice` | Task1/dataframe_statistics.py:232-241 | A choice that names no column, such as the blank answer, leaves the table unchanged. A column name drops that column. |
| `Cleaning.Rename` | Task1/dataframe_statistics.py:256 | Only the chosen column's header changes. The data, the labels and the column order stay. |
| `Cleaning.RenameRoundTrip` | Task1/dataframe_statistics.py:256 | Renaming to a fresh name and back restores the table. |
| `Cleaning.RenameChoice` | Task1/dataframe_statistics.py:244-258 | A blank choice leaves the table unchanged. A column name renames that column. |
| `Cleaning.ApplyEdit` | Task1/dataframe_statistics.py:195-262 | Every edit keeps each row as wide as the header, and keeps row labels unique when they were. With unique labels, option 1 removes exactly the rows with more missing cells than the threshold. |
| `Cleaning.Clean` | Task1/dataframe_statistics.py:178-264 | A session keeps each row as wide as the header, and keeps row labels unique when they were. |
| `Cleaning.CleanComposes` | Task1/dataframe_statistics.py:214-258 | A session is the composition of its edits: cleaning with `a` then `b` equals cleaning with `a + b`, as long as `a` does not finish. |
| `Cleaning.CleanStopsAtFinish` | Task1/dataframe_statistics.py:261-264 | Choosing "finish" (6) returns the current table; later edits are never applied. |

## Left out

- File and console I/O are not modelled. This covers `read_csv`, `to_csv`, `glob`, `os.path.exists` with its `FileNotFoundError`, the `index.txt` read, and the HTML and PNG writes. File contents and console answers are parameters.
- Plotting and HTML text are not modelled: no matplotlib figures and no `to_html` table. A `HtmlPages.Page` records the paths, the heading and the links the page text is built from.
- The `TypeError` for an argument that is not an ndarray is not modelled. The model's input type makes it vacuous.
- The main menu loop and the menu options other than cleaning are not modelled: loading data, the statistics of option 4 and the plots. Option 4 is floating-point pandas arithmetic.
- Version-specific pandas behaviour is not modelled. `DataFrame.append` is gone in pandas 2, and passing both `thresh` and `how` to `dropna` raises there. The model follows the pandas 1 meaning, where `thresh` decides.
- Cell values are integers. Float, string and mixed columns, and the renaming of duplicate header names by `read_csv`, are not modelled.
- CsvCombine.Combine: the order among rows with equal keys is not stated. `sort_index` uses an unstable sort by default. The model sorts stably but its contract promises only ascending keys and the same rows.
- SheetQC.IsSheetUsable: a ragged nested list is reported as `NotSquare`. numpy cannot build a 2-D array from one, so the script would fail earlier. A `seq<seq<int>>` cannot express an array of 0 rows and c > 0 columns either. The script rejects such an array, `np.zeros((0, 3))`, with a `ValueError` at Lastname_Firstname_A2_challenge.py:24-25, while `[]` stands for 0 by 0 and passes.
- Prompts.IterativeInputOnError: when the answers run out it returns `None`. The script never returns there: the bare `except` at lines 19-20 also catches `EOFError`, so each read gives 0 and the loop prints "Invalid selection!" forever.
- Prompts.IterativeColInputCheck: when the answers run out it returns `None`, where `input()` raises `EOFError`. The same holds for `Prompts.ReadInteger`.
- Text.ParseInt: only ASCII digits are read. `int` also accepts other Unicode decimal digits, which CPython converts to ASCII before parsing.
- Cleaning.Clean: any number of edits is applied. The script calls `op3_menu_items` recursively after every edit (lines 214, 221, 229, 241, 258), so after about 1000 edits in one session it ends with an uncaught `RecursionError`. The model has no recursion limit. When the answers run out before "finish", the model returns the current table, but the script never returns: `iterative_input_on_error` catches the `EOFError` and asks again forever (lines 19-20, 34-40).
- Prompts.ReadInteger: any number of rejected answers is allowed. `op3_x_iterative_loop` calls itself after every answer `int` rejects (line 171), so about 1000 such answers in a row end the program with an uncaught `RecursionError`.
- Text.MaxStrDigits: the digit limit is fixed at 4300, the default since Python 3.11. Raising it with `sys.set_int_max_str_digits` or `PYTHONINTMAXSTRDIGITS`, and older Pythons that have no limit, are not modelled.
- Cleaning.RenameChoice: the prompt that repeats until the new name is non-blank (lines 252-255) is not modelled. The new name is part of the edit.

## Findings

| source | as written | input that shows it | evidently intended | confidence | as-written member | corrected member |
|---|---|---|---|---|---|---|
| Task1/dataframe_statistics.py:207-211 | Null counts are collected per row label through `to_dict`, where the last row with a label wins. Then every row carrying a label over the threshold is dropped by `drop(index=...)`. | Two rows labelled 0, the first with its only cell NaN and the second full, threshold 0: both rows stay. | Drop exactly the rows with more missing cells than the threshold. | medium, not executed. Repeated labels are reachable: option 1 of the main menu can make a column with repeated values the index (lines 125-129). The cleaning session follows the script as written (`Cleaning.ApplyEdit`). | `Cleaning.DropSparseRowsAsWritten` (shown by `Cleaning.SparseDropMissesDuplicateIds`) | `Cleaning.DropSparseRows` (agreement with unique labels: `Cleaning.SparseDropAgreesOnUniqueIds`) |

=== FILE: cleaning.dfy ===
/** The cleaning sub-menu of the statistician (`op3_menu_items`): a table of
    integer cells, some missing, edited by dropping sparse rows, filling the
    missing cells, dropping duplicate rows, dropping or renaming a column, and
    the session that applies the chosen edits until the user finishes. */
module Cleaning {
  import opened Wrappers
  import opened Seqs

  /** A cell: a value, or None when it is missing (NaN). */
  type Cell = Option<int>

  /** A row: its index label and its cells, one per column. */
  datatype Row = Row(id: int, cells: seq<Cell>)

  /** A data frame: column names (not necessarily distinct) and rows. */
  datatype Table = Table(columns: seq<string>, rows: seq<Row>)

  /** Every row has one cell per column. */
  predicate WellFormed(t: Table) {
    forall i :: 0 <= i < |t.rows| ==> |t.rows[i].cells| == |t.columns|
  }

  /** No two rows share an index label. */
  predicate UniqueIds(t: Table) {
    forall i, j :: 0 <= i < j < |t.rows| ==> t.rows[i].id != t.rows[j].id
  }

  /** Number of missing cells (`isnull().sum()` over a row). */
  function MissingCount(cells: seq<Cell>): (n: nat)
    ensures n <= |cells|
  {
    if |cells| == 0 then 0
    else MissingCount(cells[..|cells| - 1]) + (if cells[|cells| - 1].None? then 1 else 0)
  }

  lemma {:induction false} NoneMissing(cells: seq<Cell>)
    requires forall j :: 0 <= j < |cells| ==> cells[j].Some?
    ensures MissingCount(cells) == 0
  {
    if |cells| > 0 {
      NoneMissing(cells[..|cells| - 1]);
    }
  }

  /** Rows taken in increasing order of position from the rows of `t` keep
      the table well formed and keep its labels unique. */
  lemma SelectRowsKeepsShape(t: Table, idx: seq<nat>)
    requires InBounds(idx, |t.rows|)
    requires forall k, l :: 0 <= k < l < |idx| ==> idx[k] < idx[l]
    ensures WellFormed(t) ==> WellFormed(Table(t.columns, Select(t.rows, idx)))
    ensures UniqueIds(t) ==> UniqueIds(Table(t.columns, Select(t.rows, idx)))
  {
  }

  // ---------------------------------------------------------------------
  // Option 1: drop rows with more missing cells than a threshold

  function WithinThreshold(threshold: int): Row -> bool {
    (r: Row) => MissingCount(r.cells) <= threshold
  }

  /** Drops exactly the rows whose missing-cell count exceeds `threshold`;
      the others stay, in their order, and the columns do not change. */
  function DropSparseRows(t: Table, threshold: int): (r: Table)
    ensures r.columns == t.columns
    ensures r.rows == Select(t.rows, Positions(|t.rows|, Satisfying(t.rows, WithinThreshold(threshold))))
    ensures forall k :: 0 <= k < |r.rows| ==> MissingCount(r.rows[k].cells) <= threshold
    ensures forall i :: 0 <= i < |t.rows| && MissingCount(t.rows[i].cells) <= threshold ==> t.rows[i] in r.rows
  {
    FilterIsSelect(t.rows, WithinThreshold(threshold), Satisfying(t.rows, WithinThreshold(threshold)));
    Table(t.columns, Filter(t.rows, WithinThreshold(threshold)))
  }

  /** No row after position `i` carries the label of row `i`. */
  predicate LastWithLabel(rows: seq<Row>, i: nat)
    requires i < |rows|
  {
    forall j :: i < j < |rows| ==> rows[j].id != rows[i].id
  }

  /** Some row carries the label `id`. */
  predicate HasLabel(rows: seq<Row>, id: int) {
    exists i :: 0 <= i < |rows| && rows[i].id == id
  }

  /** `m` is what `to_dict` reports for `rows`: exactly their labels as keys,
      each holding the missing-cell count of the last row with that label. */
  predicate ReportsCounts(rows: seq<Row>, m: map<int, nat>) {
    && (forall i :: 0 <= i < |rows| ==> rows[i].id in m)
    && (forall id :: id in m ==> HasLabel(rows, id))
    && (forall i {:trigger LastWithLabel(rows, i)} :: 0 <= i < |rows| && LastWithLabel(rows, i) ==>
         rows[i].id in m && m[rows[i].id] == MissingCount(rows[i].cells))
  }

  /** Recording the last row's count over the report of the rows before it
      gives the report of all the rows. */
  lemma ReportsCountsStep(rows: seq<Row>, prev: map<int, nat>)
    requires |rows| > 0 && ReportsCounts(rows[..|rows| - 1], prev)
    ensures ReportsCounts(rows, prev[rows[|rows| - 1].id := MissingCount(rows[|rows| - 1].cells)])
  {
    var n := |rows| - 1;
    var init := rows[..n];
    var m := prev[rows[n].id := MissingCount(rows[n].cells)];
    forall i | 0 <= i < |rows|
      ensures rows[i].id in m
    {
      if i < n {
        assert init[i] == rows[i];
      }
    }
    forall id | id in m
      ensures HasLabel(rows, id)
    {
      if id != rows[n].id {
        var i :| 0 <= i < n && init[i].id == id;
        assert rows[i] == init[i];
      }
    }
    forall i | 0 <= i < |rows| && LastWithLabel(rows, i)
      ensures rows[i].id in m && m[rows[i].id] == MissingCount(rows[i].cells)
    {
      if i < n {
        assert rows[n].id != rows[i].id;
        forall j | i < j < n
          ensures init[j].id != init[i].id
        {
          assert init[j] == rows[j] && init[i] == rows[i];
        }
        assert LastWithLabel(init, i);
      }
    }
  }

  /** `isnull().sum(axis=1).to_dict()`: one entry per label, holding the
      missing-cell count of the last row with that label (`to_dict` lets a
      later row overwrite an earlier one). */
  function MissingById(rows: seq<Row>): (m: map<int, nat>)
    ensures ReportsCounts(rows, m)
  {
    if |rows| == 0 then map[]
    else
      var n := |rows| - 1;
      ReportsCountsStep(rows, MissingById(rows[..n]));
      MissingById(rows[..n])[rows[n].id := MissingCount(rows[n].cells)]
  }

  /** A row whose label's count (as `to_dict` reports it) is within the threshold. */
  function LabelWithin(counts: map<int, nat>, threshold: int): Row -> bool {
    (r: Row) => r.id !in counts || counts[r.id] <= threshold
  }

  /** The drop as the script performs it: the labels whose reported count
      exceeds the threshold are collected, then every row carrying one of
      them is dropped; the other rows stay, in their order. */
  function DropSparseRowsAsWritten(t: Table, threshold: int): (r: Table)
    ensures r.columns == t.columns
    ensures r.rows == Select(t.rows, Positions(|t.rows|, Satisfying(t.rows, LabelWithin(MissingById(t.rows), threshold))))
    ensures forall k :: 0 <= k < |r.rows| ==>
      r.rows[k] in t.rows && MissingById(t.rows)[r.rows[k].id] <= threshold
    ensures forall i :: 0 <= i < |t.rows| && MissingById(t.rows)[t.rows[i].id] <= threshold ==> t.rows[i] in r.rows
  {
    var keep := LabelWithin(MissingById(t.rows), threshold);
    FilterIsSelect(t.rows, keep, Satisfying(t.rows, keep));
    Table(t.columns, Filter(t.rows, keep))
  }

  /** With unique labels the script drops exactly the sparse rows. */
  lemma SparseDropAgreesOnUniqueIds(t: Table, threshold: int)
    ensures UniqueIds(t) ==> DropSparseRowsAsWritten(t, threshold) == DropSparseRows(t, threshold)
  {
    if UniqueIds(t) {
      var counts := MissingById(t.rows);
      forall i | 0 <= i < |t.rows|
        ensures counts[t.rows[i].id] == MissingCount(t.rows[i].cells)
      {
        assert LastWithLabel(t.rows, i);
      }
      FilterCongruent(t.rows, LabelWithin(counts, threshold), WithinThreshold(threshold));
    }
  }

  /** With a repeated label the script keeps a row with a missing cell at
      threshold 0: the label's count is that of its last row, which is full. */
  lemma SparseDropMissesDuplicateIds()
    ensures var t := Table(["a"], [Row(0, [None]), Row(0, [Some(1)])]);
      && DropSparseRowsAsWritten(t, 0) == t
      && DropSparseRows(t, 0) == Table(["a"], [Row(0, [Some(1)])])
  {
    var t := Table(["a"], [Row(0, [None]), Row(0, [Some(1)])]);
    assert MissingCount([None]) == 1;
    assert MissingCount([Some(1)]) == 0;
    var counts := MissingById(t.rows);
    assert t.rows[..1] == [Row(0, [None])];
    assert t.rows[..1][..0] == [];
    assert MissingById(t.rows[..1]) == map[0 := 1];
    assert counts == map[0 := 0];
    FilterAll(t.rows, LabelWithin(counts, 0));
    var kept := Filter(t.rows, WithinThreshold(0));
    assert kept == [Row(0, [Some(1)])];
  }

  // ---------------------------------------------------------------------
  // Option 2: fill the missing cells

  function FillCell(value: int): Cell -> Cell {
    (c: Cell) => if c.None? then Some(value) else c
  }

  function FillRow(value: int): Row -> Row {
    (r: Row) => Row(r.id, Map(r.cells, FillCell(value)))
  }

  /** `fillna(value)`: every missing cell becomes `value`; every present cell,
      every label and every column stays as it was. */
  function FillMissing(t: Table, value: int): (r: Table)
    ensures r.columns == t.columns && |r.rows| == |t.rows|
    ensures forall i :: 0 <= i < |t.rows| ==>
      r.rows[i].id == t.rows[i].id && |r.rows[i].cells| == |t.rows[i].cells|
    ensures forall i, j :: 0 <= i < |t.rows| && 0 <= j < |t.rows[i].cells| ==>
      && r.rows[i].cells[j].Some?
      && (t.rows[i].cells[j].Some? ==> r.rows[i].cells[j] == t.rows[i].cells[j])
      && (t.rows[i].cells[j].None? ==> r.rows[i].cells[j] == Some(value))
  {
    Table(t.columns, Map(t.rows, FillRow(value)))
  }

  /** After a fill no row is sparse, so a drop with any threshold of at
      least 0 keeps every row. */
  lemma FilledTableKeepsAllRows(t: Table, value: int, threshold: int)
    requires threshold >= 0
    ensures DropSparseRows(FillMissing(t, value), threshold) == FillMissing(t, value)
  {
    var f := FillMissing(t, value);
    forall i | 0 <= i < |f.rows|
      ensures MissingCount(f.rows[i].cells) == 0
    {
      NoneMissing(f.rows[i].cells);
    }
    FilterAll(f.rows, WithinThreshold(threshold));
  }

  /** Filling twice is filling once: the second fill finds nothing missing. */
  lemma FillIsIdempotent(t: Table, value: int, other: int)
    ensures FillMissing(FillMissing(t, value), other) == FillMissing(t, value)
  {
    var once := FillMissing(t, value);
    var twice := FillMissing(once, other);
    forall i | 0 <= i < |t.rows|
      ensures twice.rows[i] == once.rows[i]
    {
      assert twice.rows[i].cells == once.rows[i].cells;
    }
  }

  // ---------------------------------------------------------------------
  // Option 3: drop duplicate rows

  /** Rows are compared by their cells only, as `duplicated` does. */
  function CellsOf(r: Row): seq<Cell> {
    r.cells
  }

  /** Some row of `rows` has the cells `cells`. */
  predicate HasCells(rows: seq<Row>, cells: seq<Cell>) {
    exists k :: 0 <= k < |rows| && rows[k].cells == cells
  }

  /** `drop_duplicates()` with the reported count `duplicated().sum()`: the
      first row of each distinct content stays, in order; the count is the
      number of rows removed. A frame without columns is empty to pandas,
      which then returns it whole and counts no duplicate. */
  function DropDuplicates(t: Table): (r: (Table, nat))
    ensures r.0.columns == t.columns
    ensures |t.columns| == 0 ==> r == (t, 0)
    ensures |t.columns| > 0 ==> r.0.rows == Select(t.rows, Positions(|t.rows|, FirstOccurrences(t.rows, CellsOf)))
    ensures |t.columns| > 0 ==> forall i, j :: 0 <= i < j < |r.0.rows| ==> r.0.rows[i].cells != r.0.rows[j].cells
    ensures |t.columns| > 0 ==> forall i :: 0 <= i < |t.rows| ==> HasCells(r.0.rows, t.rows[i].cells)
    ensures r.1 == |t.rows| - |r.0.rows|
  {
    if |t.columns| == 0 then (t, 0)
    else
      DedupRows(t.rows);
      (Table(t.columns, DedupBy(t.rows, CellsOf)), DuplicateCount(t.rows, CellsOf))
  }

  /** The facts about deduplicating rows by their cells that `DropDuplicates` reports. */
  lemma DedupRows(rows: seq<Row>)
    ensures DedupBy(rows, CellsOf) == Select(rows, Positions(|rows|, FirstOccurrences(rows, CellsOf)))
    ensures forall i, j :: 0 <= i < j < |DedupBy(rows, CellsOf)| ==>
      DedupBy(rows, CellsOf)[i].cells != DedupBy(rows, CellsOf)[j].cells
    ensures forall i :: 0 <= i < |rows| ==> HasCells(DedupBy(rows, CellsOf), rows[i].cells)
    ensures DuplicateCount(rows, CellsOf) == |rows| - |DedupBy(rows, CellsOf)|
  {
    DedupIsSelect(rows, CellsOf, FirstOccurrences(rows, CellsOf));
    DedupRowsDistinct(rows);
    DedupRowsCover(rows);
    DuplicateCountIsRemoved(rows, CellsOf);
  }

  lemma DedupRowsDistinct(rows: seq<Row>)
    ensures forall i, j :: 0 <= i < j < |DedupBy(rows, CellsOf)| ==>
      DedupBy(rows, CellsOf)[i].cells != DedupBy(rows, CellsOf)[j].cells
  {
    var kept := DedupBy(rows, CellsOf);
    DedupKeysDistinct(rows, CellsOf);
    forall i, j | 0 <= i < j < |kept|
      ensures kept[i].cells != kept[j].cells
    {
      assert CellsOf(kept[i]) != CellsOf(kept[j]);
    }
  }

  lemma DedupRowsCover(rows: seq<Row>)
    ensures forall i :: 0 <= i < |rows| ==> HasCells(DedupBy(rows, CellsOf), rows[i].cells)
  {
    var kept := DedupBy(rows, CellsOf);
    forall i | 0 <= i < |rows|
      ensures HasCells(kept, rows[i].cells)
    {
      var k := DedupCovers(rows, CellsOf, i);
      assert CellsOf(kept[k]) == CellsOf(rows[i]);
      assert kept[k].cells == rows[i].cells;
    }
  }

  // ---------------------------------------------------------------------
  // Option 4: drop a column

  /** The positions of the columns not called `name`. */
  function NotNamed(columns: seq<string>, name: string): nat -> bool {
    (i: nat) => i < |columns| && columns[i] != name
  }

  /** The entries of `s` that sit under a column not called `name`. */
  function ProjectOut<T>(columns: seq<string>, s: seq<T>, name: string): seq<T>
    requires |columns| == |s|
  {
    if |s| == 0 then []
    else
      var n := |s| - 1;
      ProjectOut(columns[..n], s[..n], name) + (if columns[n] != name then [s[n]] else [])
  }

  lemma {:induction false} ProjectOutIsSelect<T>(columns: seq<string>, s: seq<T>, name: string)
    requires |columns| == |s|
    ensures ProjectOut(columns, s, name) == Select(s, Positions(|s|, NotNamed(columns, name)))
  {
    if |s| > 0 {
      var n := |s| - 1;
      ProjectOutIsSelect(columns[..n], s[..n], name);
      PositionsExt(n, NotNamed(columns[..n], name), NotNamed(columns, name));
      var front := Positions(n, NotNamed(columns, name));
      var back: seq<nat> := if columns[n] != name then [n] else [];
      SelectPrefix(s, n, front);
      SelectAppend(s, front, back);
    }
  }

  function DropFromRow(columns: seq<string>, name: string): Row -> Row {
    (r: Row) => if |r.cells| == |columns| then Row(r.id, ProjectOut(columns, r.cells, name)) else r
  }

  /** `drop(name, axis=1)`: removes every column called `name`, with its cells;
      the remaining columns keep their order and every row keeps its label
      and the cells of the remaining columns. */
  function DropColumn(t: Table, name: string): (r: Table)
    requires WellFormed(t)
    ensures WellFormed(r)
    ensures name !in r.columns
    ensures r.columns == Select(t.columns, Positions(|t.columns|, NotNamed(t.columns, name)))
    ensures |r.rows| == |t.rows|
    ensures forall i :: 0 <= i < |t.rows| ==>
      r.rows[i].id == t.rows[i].id && r.rows[i].cells == Select(t.rows[i].cells, Positions(|t.columns|, NotNamed(t.columns, name)))
  {
    var kept := Positions(|t.columns|, NotNamed(t.columns, name));
    ProjectOutIsSelect(t.columns, t.columns, name);
    var rows := Map(t.rows, DropFromRow(t.columns, name));
    assert forall i :: 0 <= i < |t.rows| ==> rows[i].cells == ProjectOut(t.columns, t.rows[i].cells, name);
    forall i | 0 <= i < |t.rows|
      ensures rows[i].cells == Select(t.rows[i].cells, kept)
    {
      ProjectOutIsSelect(t.columns, t.rows[i].cells, name);
    }
    Table(ProjectOut(t.columns, t.columns, name), rows)
  }

  /** Option 4 as the menu runs it: a choice that names no column (the blank
      answer, normally) leaves the table as it is. */
  function DropColumnChoice(t: Table, choice: string): (r: Table)
    requires WellFormed(t)
    ensures WellFormed(r)
    ensures choice !in t.columns ==> r == t
    ensures choice in t.columns ==> r == DropColumn(t, choice)
  {
    if choice in t.columns then DropColumn(t, choice) else t
  }

  // ---------------------------------------------------------------------
  // Option 5: rename a column

  /** `rename(columns={name: newName})`: every column called `name` is now
      called `newName`; data, labels and column order are untouched. */
  function Rename(t: Table, name: string, newName: string): (r: Table)
    ensures r.rows == t.rows
    ensures |r.columns| == |t.columns|
    ensures forall i :: 0 <= i < |t.columns| && t.columns[i] != name ==> r.columns[i] == t.columns[i]
    ensures forall i :: 0 <= i < |t.columns| && t.columns[i] == name ==> r.columns[i] == newName
  {
    Table(seq(|t.columns|, i requires 0 <= i < |t.columns| =>
      if t.columns[i] == name then newName else t.columns[i]), t.rows)
  }

  /** Renaming to a fresh name and back restores the table. */
  lemma RenameRoundTrip(t: Table, name: string, newName: string)
    requires newName !in t.columns
    ensures Rename(Rename(t, name, newName), newName, name) == t
  {
  }

  /** Option 5 as the menu runs it: a blank choice, or one that names no
      column, leaves the table as it is. */
  function RenameChoice(t: Table, choice: string, newName: string): (r: Table)
    ensures choice == [] || choice !in t.columns ==> r == t
    ensures choice != [] && choice in t.columns ==> r == Rename(t, choice, newName)
  {
    if choice == [] then t
    else if choice in t.columns then Rename(t, choice, newName)
    else t
  }

  // ---------------------------------------------------------------------
  // The cleaning session

  /** One answer to the cleaning menu, with the values its follow-up
      prompts collected. */
  datatype Edit =
    | DropRowsOver(threshold: int)                  // 1: drop rows with missing values
    | FillWith(value: int)                          // 2: fill missing values
    | DropDuplicateRows                             // 3: drop duplicate rows
    | DropColumnNamed(choice: string)               // 4: drop column
    | RenameColumnNamed(choice: string, newName: string) // 5: rename column
    | Finish                                        // 6: finish cleaning

  function ApplyEdit(t: Table, e: Edit): (r: Table)
    requires WellFormed(t)
    ensures WellFormed(r)
    ensures UniqueIds(t) ==> UniqueIds(r)
    ensures UniqueIds(t) && e.DropRowsOver? ==> r == DropSparseRows(t, e.threshold)
  {
    match e
    case DropRowsOver(threshold) =>
      SelectRowsKeepsShape(t, Positions(|t.rows|, Satisfying(t.rows, LabelWithin(MissingById(t.rows), threshold))));
      SparseDropAgreesOnUniqueIds(t, threshold);
      DropSparseRowsAsWritten(t, threshold)
    case FillWith(value) => FillMissing(t, value)
    case DropDuplicateRows =>
      SelectRowsKeepsShape(t, Positions(|t.rows|, FirstOccurrences(t.rows, CellsOf)));
      DropDuplicates(t).0
    case DropColumnNamed(choice) => DropColumnChoice(t, choice)
    case RenameColumnNamed(choice, newName) => RenameChoice(t, choice, newName)
    case Finish => t
  }

  /** `op3_menu_items`: applies the chosen edits in order and returns the
      table when the user chooses to finish. */
  function Clean(t: Table, edits: seq<Edit>): (r: Table)
    requires WellFormed(t)
    ensures WellFormed(r)
    ensures UniqueIds(t) ==> UniqueIds(r)
    decreases |edits|
  {
    if |edits| == 0 || edits[0].Finish? then t
    else Clean(ApplyEdit(t, edits[0]), edits[1..])
  }

  predicate NoFinish(edits: seq<Edit>) {
    forall k :: 0 <= k < |edits| ==> !edits[k].Finish?
  }

  /** A session is the composition of its edits: cleaning with `a` and then
      with `b` is cleaning with `a + b`, as long as `a` does not finish. */
  lemma {:induction false} CleanComposes(t: Table, a: seq<Edit>, b: seq<Edit>)
    requires WellFormed(t) && NoFinish(a)
    ensures Clean(t, a + b) == Clean(Clean(t, a), b)
    decreases |a|
  {
    if |a| > 0 {
      assert (a + b)[0] == a[0];
      assert (a + b)[1..] == a[1..] + b;
      CleanComposes(ApplyEdit(t, a[0]), a[1..], b);
    } else {
      assert a + b == b;
    }
  }

  /** Choosing "finish" ends the session: the edits after it are never applied. */
  lemma {:induction false} CleanStopsAtFinish(t: Table, a: seq<Edit>, b: seq<Edit>)
    requires WellFormed(t) && NoFinish(a)
    ensures Clean(t, a + [Finish] + b) == Clean(t, a)
    decreases |a|
  {
    if |a| > 0 {
      assert (a + [Finish] + b)[0] == a[0];
      assert (a + [Finish] + b)[1..] == a[1..] + [Finish] + b;
      CleanStopsAtFinish(ApplyEdit(t, a[0]), a[1..], b);
    } else {
      assert (a + [Finish] + b)[0] == Finish;
    }
  }
}

=== FILE: combine.dfy ===
/** `combine_csv_files` without its I/O: the CSV files of a directory that
    have a `key` column are stacked into one frame indexed by that column,
    the rows are sorted by key, the columns by name, and the columns that
    are empty in more than half of the rows are dropped. */
module CsvCombine {
  import opened Wrappers
  import opened Seqs
  import opened Sorting
  import opened Text

  /** The name of the column that becomes the index. */
  const KeyColumn: string := "key"

  /** A parsed CSV file: its header and its rows. A row maps column names to
      values; a name the row does not map is an empty (NaN) cell. */
  datatype CsvFile = CsvFile(header: seq<string>, rows: seq<map<string, int>>)

  /** A row of the combined frame: its index value (None for NaN) and its
      non-empty cells by column name. */
  datatype KeyedRow = KeyedRow(key: Option<int>, cells: map<string, int>)

  /** The combined frame: its columns in order and its rows in order. */
  datatype Combined = Combined(columns: seq<string>, rows: seq<KeyedRow>)

  /** A file that takes part: one `read_csv` could parse (None stands for a
      file it could not, which the script skips) with a `key` column. */
  predicate HasKey(f: Option<CsvFile>) {
    f.Some? && KeyColumn in f.value.header
  }

  predicate IsDataColumn(c: string) {
    c != KeyColumn
  }

  /** `set_index("key")` on one row of a file with header `header`. */
  function ReadRow(header: seq<string>): map<string, int> -> KeyedRow {
    (row: map<string, int>) => KeyedRow(
      if KeyColumn in row then Some(row[KeyColumn]) else None,
      map c | c in row && c in header && c != KeyColumn :: row[c])
  }

  /** The rows a file contributes: none unless it takes part. */
  function FileRows(f: Option<CsvFile>): seq<KeyedRow> {
    if HasKey(f) then Map(f.value.rows, ReadRow(f.value.header)) else []
  }

  /** The columns a file contributes: its header without `key`. */
  function FileColumns(f: Option<CsvFile>): seq<string> {
    if HasKey(f) then Filter(f.value.header, IsDataColumn) else []
  }

  /** The rows of the participating files, appended in file order. */
  function Merged(files: seq<Option<CsvFile>>): seq<KeyedRow> {
    if |files| == 0 then []
    else Merged(files[..|files| - 1]) + FileRows(files[|files| - 1])
  }

  /** The column names of the participating files, in file order, repeats kept. */
  function AllColumns(files: seq<Option<CsvFile>>): seq<string> {
    if |files| == 0 then []
    else AllColumns(files[..|files| - 1]) + FileColumns(files[|files| - 1])
  }

  /** The columns of the appended frame: every non-key header name of a
      participating file. */
  function ColumnsOf(files: seq<Option<CsvFile>>): set<string> {
    set i, c | 0 <= i < |files| && HasKey(files[i]) && c in files[i].value.header && c != KeyColumn :: c
  }

  /** `sort_index(ascending=True)` on the key: numbers ascending, NaN last. */
  predicate KeyLe(a: Option<int>, b: Option<int>) {
    b.None? || (a.Some? && a.value <= b.value)
  }

  predicate RowKeyLe(x: KeyedRow, y: KeyedRow) {
    KeyLe(x.key, y.key)
  }

  function HasCell(c: string): KeyedRow -> bool {
    (r: KeyedRow) => c in r.cells
  }

  /** `count()` of column `c`: the rows with a value in it. */
  function NonNull(rows: seq<KeyedRow>, c: string): nat {
    |Filter(rows, HasCell(c))|
  }

  /** `dropna(thresh=rows * 0.5, axis=1)` keeps a column whose count is at
      least half the number of rows. */
  function Dense(rows: seq<KeyedRow>): string -> bool {
    (c: string) => 2 * NonNull(rows, c) >= |rows|
  }

  /** A row reduced to the cells of the columns in `keep`. */
  function RestrictTo(keep: seq<string>): KeyedRow -> KeyedRow {
    (r: KeyedRow) => KeyedRow(r.key, map c | c in r.cells && c in keep :: r.cells[c])
  }

  function Id(c: string): string {
    c
  }

  // ---------------------------------------------------------------------
  // The orders

  lemma KeyOrderIsTotalPreorder()
    ensures TotalPreorder(RowKeyLe)
  {
  }

  lemma LexOrderIsTotalPreorder()
    ensures TotalPreorder(LexLe)
  {
    forall a, b
      ensures LexLe(a, b) || LexLe(b, a)
    {
      LexLeTotal(a, b);
    }
    forall a, b, c | LexLe(a, b) && LexLe(b, c)
      ensures LexLe(a, c)
    {
      LexLeTransitive(a, b, c);
    }
  }

  // ---------------------------------------------------------------------
  // The combine

  /** `sorted` applied to the column names `all` of the appended frame: the
      names, each once, in ascending order. */
  function SortedNames(all: seq<string>): (cols: seq<string>)
    ensures Sorted(cols, LexLe) && Distinct(cols)
    ensures forall c :: c in cols <==> c in all
  {
    var names := DedupBy(all, Id);
    DedupByFacts(all, Id);
    assert forall c :: c in names <==> c in all by {
      forall c | c in all
        ensures c in names
      {
        var i :| 0 <= i < |all| && all[i] == c;
        var k :| 0 <= k < |names| && Id(names[k]) == Id(all[i]);
      }
    }
    LexOrderIsTotalPreorder();
    var cols := Sort(names, LexLe);
    DistinctPerm(names, cols);
    assert forall c :: c in cols <==> c in multiset(names);
    cols
  }

  /** The appended rows `rows` sorted by key, and the ascending column names
      `cols` reduced to those non-empty in at least half of the rows. */
  function Assemble(rows: seq<KeyedRow>, cols: seq<string>): (r: Combined)
    requires Sorted(cols, LexLe) && Distinct(cols)
    ensures Sorted(r.columns, LexLe) && Distinct(r.columns)
    ensures forall c :: c in r.columns <==> c in cols && 2 * NonNull(rows, c) >= |rows|
    ensures Sorted(r.rows, RowKeyLe)
    ensures multiset(r.rows) == multiset(Map(rows, RestrictTo(r.columns)))
    ensures |r.rows| == |rows|
    ensures forall i, c :: 0 <= i < |r.rows| && c in r.rows[i].cells ==> c in r.columns
  {
    KeyOrderIsTotalPreorder();
    var sortedRows := Sort(rows, RowKeyLe);
    forall c {
      DenseOfPermutation(sortedRows, rows, c);
    }
    FilterCongruent(cols, Dense(sortedRows), Dense(rows));
    var kept := Filter(cols, Dense(sortedRows));
    FilterKeepsAscending(cols, Dense(rows), LexLe);
    var restricted := Map(sortedRows, RestrictTo(kept));
    MapPerm(sortedRows, rows, RestrictTo(kept));
    assert |multiset(restricted)| == |multiset(Map(rows, RestrictTo(kept)))|;
    Combined(kept, restricted)
  }

  /** `combine_csv_files` without its I/O. The columns are the non-key
      columns of the participating files that are non-empty in at least half
      of the rows, each once, ascending and never `key`; the rows are those
      of the participating files, each restricted to these columns, ordered
      by key with NaN keys last. */
  function Combine(files: seq<Option<CsvFile>>): (r: Combined)
    ensures Sorted(r.columns, LexLe) && Distinct(r.columns)
    ensures forall c :: c in r.columns <==>
      c in ColumnsOf(files) && 2 * NonNull(Merged(files), c) >= |Merged(files)|
    ensures KeyColumn !in r.columns
    ensures Sorted(r.rows, RowKeyLe)
    ensures multiset(r.rows) == multiset(Map(Merged(files), RestrictTo(r.columns)))
    ensures |r.rows| == |Merged(files)|
    ensures forall i, c :: 0 <= i < |r.rows| && c in r.rows[i].cells ==> c in r.columns
  {
    AllColumnsAreColumnsOf(files);
    Assemble(Merged(files), SortedNames(AllColumns(files)))
  }

  // ---------------------------------------------------------------------
  // Lemmas

  /** The columns one file contributes are the non-key names of its header,
      if it takes part. */
  lemma FileColumnsMembers(f: Option<CsvFile>)
    ensures forall c :: c in FileColumns(f) <==> HasKey(f) && c in f.value.header && c != KeyColumn
  {
    if HasKey(f) {
      forall c | c in f.value.header && c != KeyColumn
        ensures c in FileColumns(f)
      {
        var j :| 0 <= j < |f.value.header| && f.value.header[j] == c;
        assert IsDataColumn(f.value.header[j]);
      }
    }
  }

  /** The columns of one more file are its own columns added to the others'. */
  lemma ColumnsOfSnoc(init: seq<Option<CsvFile>>, last: Option<CsvFile>)
    ensures forall c :: c in ColumnsOf(init + [last]) <==> c in ColumnsOf(init) || c in FileColumns(last)
  {
    var files := init + [last];
    FileColumnsMembers(last);
    forall c
      ensures c in ColumnsOf(files) <==> c in ColumnsOf(init) || c in FileColumns(last)
    {
      if c in ColumnsOf(files) {
        var i :| 0 <= i < |files| && HasKey(files[i]) && c in files[i].value.header && c != KeyColumn;
        if i < |init| {
          assert files[i] == init[i];
        } else {
          assert files[i] == last;
        }
      }
      if c in ColumnsOf(init) {
        var i :| 0 <= i < |init| && HasKey(init[i]) && c in init[i].value.header && c != KeyColumn;
        assert files[i] == init[i];
        assert HasKey(files[i]) && c in files[i].value.header;
      }
      if c in FileColumns(last) {
        assert files[|init|] == last;
        assert HasKey(files[|init|]) && c in files[|init|].value.header;
      }
    }
  }

  lemma {:induction false} AllColumnsAreColumnsOf(files: seq<Option<CsvFile>>)
    ensures forall c :: c in AllColumns(files) <==> c in ColumnsOf(files)
  {
    if |files| > 0 {
      var n := |files| - 1;
      var init, last := files[..n], files[n];
      AllColumnsAreColumnsOf(init);
      assert files == init + [last];
      ColumnsOfSnoc(init, last);
      assert AllColumns(files) == AllColumns(init) + FileColumns(last);
    }
  }

  /** Row counts of a column depend only on which rows there are, not on
      their order. */
  lemma DenseOfPermutation(a: seq<KeyedRow>, b: seq<KeyedRow>, c: string)
    requires multiset(a) == multiset(b)
    ensures Dense(a)(c) == Dense(b)(c)
  {
    FilterPerm(a, b, HasCell(c));
    assert |multiset(Filter(a, HasCell(c)))| == |multiset(Filter(b, HasCell(c)))|;
    assert |multiset(a)| == |multiset(b)|;
  }

  /** Dropping entries keeps a strictly ascending sequence strictly ascending. */
  lemma {:induction false} FilterKeepsAscending<T>(s: seq<T>, p: T -> bool, le: (T, T) -> bool)
    requires Sorted(s, le) && Distinct(s)
    ensures Sorted(Filter(s, p), le) && Distinct(Filter(s, p))
    decreases |s|
  {
    if |s| > 0 {
      var n := |s| - 1;
      var init, last := s[..n], s[n];
      assert s == init + [last];
      FilterKeepsAscending(init, p, le);
      var f := Filter(init, p);
      if p(last) {
        forall k | 0 <= k < |f|
          ensures le(f[k], last) && f[k] != last
        {
          var i :| 0 <= i < n && init[i] == f[k];
          assert s[i] == f[k];
        }
        var g := f + [last];
        forall i, j | 0 <= i < j < |g|
          ensures le(g[i], g[j]) && g[i] != g[j]
        {
          if j < |f| {
            assert g[i] == f[i] && g[j] == f[j];
          }
        }
        assert Filter(s, p) == g;
      } else {
        assert Filter(s, p) == f;
      }
    }
  }

  lemma {:induction false} MergedAppend(a: seq<Option<CsvFile>>, b: seq<Option<CsvFile>>)
    ensures Merged(a + b) == Merged(a) + Merged(b)
  {
    if |b| > 0 {
      var init, last := b[..|b| - 1], b[|b| - 1];
      assert (a + b)[..|a + b| - 1] == a + init;
      assert (a + b)[|a + b| - 1] == last;
      MergedAppend(a, init);
      assert Merged(a + b) == Merged(a) + Merged(init) + FileRows(last);
    } else {
      assert a + b == a;
    }
  }

  lemma {:induction false} AllColumnsAppend(a: seq<Option<CsvFile>>, b: seq<Option<CsvFile>>)
    ensures AllColumns(a + b) == AllColumns(a) + AllColumns(b)
  {
    if |b| > 0 {
      var init, last := b[..|b| - 1], b[|b| - 1];
      assert (a + b)[..|a + b| - 1] == a + init;
      assert (a + b)[|a + b| - 1] == last;
      AllColumnsAppend(a, init);
      assert AllColumns(a + b) == AllColumns(a) + AllColumns(init) + FileColumns(last);
    } else {
      assert a + b == a;
    }
  }

  /** Two sequences without repeats that hold the same names are
      permutations of each other. */
  lemma SameNamesPerm(a: seq<string>, b: seq<string>)
    requires Distinct(a) && Distinct(b)
    requires forall c :: c in a <==> c in b
    ensures multiset(a) == multiset(b)
  {
    DistinctMultiplicity(a);
    DistinctMultiplicity(b);
    forall c
      ensures multiset(a)[c] == multiset(b)[c]
    {
      assert c in a <==> c in multiset(a);
      assert c in b <==> c in multiset(b);
    }
  }

  /** Two ascending orderings of the same names are the same sequence. */
  lemma {:induction false} AscendingUnique(a: seq<string>, b: seq<string>)
    requires Sorted(a, LexLe) && Sorted(b, LexLe)
    requires multiset(a) == multiset(b)
    ensures a == b
    decreases |a|
  {
    assert |a| == |multiset(a)| && |b| == |multiset(b)|;
    if |a| > 0 {
      var x, y := a[0], b[0];
      assert x in b by {
        assert x in multiset(a);
      }
      assert y in a by {
        assert y in multiset(b);
      }
      var i :| 0 <= i < |a| && a[i] == y;
      var j :| 0 <= j < |b| && b[j] == x;
      if i > 0 && j > 0 {
        LexLeAntisymmetric(x, y);
      }
      var ta, tb := a[1..], b[1..];
      assert a == [x] + ta;
      assert b == [x] + tb;
      assert x == y;
      assert multiset(ta) == multiset(a) - multiset{x} by {
        assert multiset(a) == multiset{x} + multiset(ta);
      }
      assert multiset(tb) == multiset(b) - multiset{x} by {
        assert multiset(b) == multiset{x} + multiset(tb);
      }
      SortedTail(a, LexLe);
      SortedTail(b, LexLe);
      AscendingUnique(ta, tb);
    }
  }

  /** A file without a `key` column (or one that cannot be read) has no
      effect on the result, wherever it is listed. */
  lemma IgnoresFilesWithoutKey(a: seq<Option<CsvFile>>, f: Option<CsvFile>, b: seq<Option<CsvFile>>)
    requires !HasKey(f)
    ensures Combine(a + [f] + b) == Combine(a + b)
  {
    MergedAppend(a + [f], b);
    MergedAppend(a, [f]);
    MergedAppend(a, b);
    AllColumnsAppend(a + [f], b);
    AllColumnsAppend(a, [f]);
    AllColumnsAppend(a, b);
    assert [f][..0] == [];
    assert Merged([f]) == [] && AllColumns([f]) == [];
    assert Merged(a + [f]) == Merged(a) && AllColumns(a + [f]) == AllColumns(a);
  }

  /** Assembling two orderings of the same rows gives the same columns and
      the same rows. */
  lemma AssembleOfPermutation(x: seq<KeyedRow>, y: seq<KeyedRow>, cols: seq<string>)
    requires Sorted(cols, LexLe) && Distinct(cols)
    requires multiset(x) == multiset(y)
    ensures Assemble(x, cols).columns == Assemble(y, cols).columns
    ensures multiset(Assemble(x, cols).rows) == multiset(Assemble(y, cols).rows)
  {
    var rx, ry := Assemble(x, cols), Assemble(y, cols);
    forall c
      ensures c in rx.columns <==> c in ry.columns
    {
      DenseOfPermutation(x, y, c);
    }
    SameNamesPerm(rx.columns, ry.columns);
    AscendingUnique(rx.columns, ry.columns);
    MapPerm(x, y, RestrictTo(rx.columns));
  }

  /** The rows of a file sit between those of the files before it and those
      of the files after it. */
  lemma MergedAround(a: seq<Option<CsvFile>>, x: Option<CsvFile>, b: seq<Option<CsvFile>>)
    ensures Merged(a + [x] + b) == Merged(a) + FileRows(x) + Merged(b)
  {
    assert Merged([x]) == FileRows(x) by {
      assert [x][..0] == [];
    }
    MergedAppend(a + [x], b);
    MergedAppend(a, [x]);
  }

  /** Reordering the files reorders the appended rows and nothing more. */
  lemma {:induction false} MergedPerm(f1: seq<Option<CsvFile>>, f2: seq<Option<CsvFile>>)
    requires multiset(f1) == multiset(f2)
    ensures multiset(Merged(f1)) == multiset(Merged(f2))
    decreases |f1|
  {
    if |f1| == 0 {
      assert |multiset(f2)| == 0;
    } else {
      var n := |f1| - 1;
      var x := f1[n];
      assert x in multiset(f2);
      var j :| 0 <= j < |f2| && f2[j] == x;
      RemoveAt(f2, j, x);
      assert f1 == f1[..n] + [x];
      assert multiset(f1[..n]) == multiset(f2[..j] + f2[j + 1..]);
      MergedPerm(f1[..n], f2[..j] + f2[j + 1..]);
      var before, after := f2[..j], f2[j + 1..];
      MergedAround(before, x, after);
      MergedAppend(before, after);
      MultisetMiddle(Merged(before), FileRows(x), Merged(after));
      assert Merged(f1) == Merged(f1[..n]) + FileRows(x);
    }
  }

  /** A column of the files `f1` is a column of any files holding every file of `f1`. */
  lemma ColumnsOfSubset(f1: seq<Option<CsvFile>>, f2: seq<Option<CsvFile>>)
    requires forall f :: f in f1 ==> f in f2
    ensures ColumnsOf(f1) <= ColumnsOf(f2)
  {
    forall c | c in ColumnsOf(f1)
      ensures c in ColumnsOf(f2)
    {
      var i :| 0 <= i < |f1| && HasKey(f1[i]) && c in f1[i].value.header && c != KeyColumn;
      assert f1[i] in f2;
      var j :| 0 <= j < |f2| && f2[j] == f1[i];
    }
  }

  /** The order in which the directory lists the files does not change the
      columns, nor which rows the result holds. */
  lemma FileOrderIrrelevant(f1: seq<Option<CsvFile>>, f2: seq<Option<CsvFile>>)
    requires multiset(f1) == multiset(f2)
    ensures Combine(f1).columns == Combine(f2).columns
    ensures multiset(Combine(f1).rows) == multiset(Combine(f2).rows)
  {
    MergedPerm(f1, f2);
    assert forall f :: f in f1 <==> f in f2 by {
      assert forall f :: f in f1 <==> f in multiset(f1);
      assert forall f :: f in f2 <==> f in multiset(f2);
    }
    ColumnsOfSubset(f1, f2);
    ColumnsOfSubset(f2, f1);
    AllColumnsAreColumnsOf(f1);
    AllColumnsAreColumnsOf(f2);
    var c1, c2 := SortedNames(AllColumns(f1)), SortedNames(AllColumns(f2));
    SameNamesPerm(c1, c2);
    AscendingUnique(c1, c2);
    AssembleOfPermutation(Merged(f1), Merged(f2), c1);
  }
}

=== FILE: pages.dfy ===
/** The page chain of `make_html_files`: one HTML page per line of the index,
    named after the listed file, linked to its neighbours in index order.
    Paths follow POSIX `os.path` rules. */
module HtmlPages {
  import opened Wrappers
  import Text

  /** Position of the last `c` in `s`, or -1 when there is none (`str.rfind`). */
  function LastIndexOf(s: string, c: char): (r: int)
    ensures -1 <= r < |s|
    ensures r >= 0 ==> s[r] == c
    ensures forall k :: r < k < |s| ==> s[k] != c
  {
    if |s| == 0 then -1
    else if s[|s| - 1] == c then |s| - 1
    else LastIndexOf(s[..|s| - 1], c)
  }

  /** Where `os.path.splitext` cuts `p`: at its last dot when that dot lies in
      the last path component and something other than dots precedes it there;
      otherwise at the end (no extension). */
  function ExtStart(p: string): (d: nat)
    ensures d <= |p|
  {
    var sep := LastIndexOf(p, '/');
    var dot := LastIndexOf(p, '.');
    if dot > sep && exists k :: sep + 1 <= k < dot && p[k] != '.' then dot else |p|
  }

  /** `os.path.splitext(p)`: the root and the extension. An extension is
      split off exactly when the last path component has a dot with
      something other than dots before it; leading dots stay in the root. */
  function SplitExt(p: string): (parts: (string, string))
    ensures parts.0 + parts.1 == p
    ensures parts.1 == [] || (parts.1[0] == '.' && forall k :: 1 <= k < |parts.1| ==> parts.1[k] != '.' && parts.1[k] != '/')
    ensures parts.1 != [] ==> HasBaseName(parts.0)
    ensures parts.1 == [] ==> forall d :: LastIndexOf(p, '/') < d < |p| && p[d] == '.' ==> !HasBaseName(p[..d])
  {
    var d := ExtStart(p);
    var sep := LastIndexOf(p, '/');
    assert p == p[..d] + p[d..];
    assert d < |p| ==> HasBaseName(p[..d]) by {
      if d < |p| {
        LastIndexOfPrefix(p, d, '/');
      }
    }
    assert d == |p| ==> forall e :: sep < e < |p| && p[e] == '.' ==> !HasBaseName(p[..e]) by {
      forall e | d == |p| && sep < e < |p| && p[e] == '.'
        ensures !HasBaseName(p[..e])
      {
        LastIndexOfPrefix(p, e, '/');
      }
    }
    (p[..d], p[d..])
  }

  /** Cutting `s` after its last `c` keeps that `c` the last one. */
  lemma LastIndexOfPrefix(s: string, d: nat, c: char)
    requires LastIndexOf(s, c) < d <= |s|
    ensures LastIndexOf(s[..d], c) == LastIndexOf(s, c)
  {
    assert s == s[..d] + s[d..];
    LastIndexOfAppend(s[..d], s[d..], c);
  }

  /** `os.path.splitext(p)[0]`. */
  function Stem(p: string): string {
    SplitExt(p).0
  }

  /** The last path component of `name` holds something other than dots. */
  predicate HasBaseName(name: string) {
    exists k :: LastIndexOf(name, '/') < k < |name| && name[k] != '.'
  }

  lemma {:induction false} LastIndexOfAppend(a: string, b: string, c: char)
    ensures LastIndexOf(a + b, c) == if c in b then |a| + LastIndexOf(b, c) else LastIndexOf(a, c)
  {
    if |b| > 0 {
      var init := b[..|b| - 1];
      assert (a + b)[..|a + b| - 1] == a + init;
      LastIndexOfAppend(a, init, c);
      assert b == init + [b[|b| - 1]];
    } else {
      assert a + b == a;
    }
  }

  /** Adding an extension to a name and splitting it off again gives the name back. */
  lemma StemOfExtended(name: string, ext: string)
    requires HasBaseName(name)
    requires forall k :: 0 <= k < |ext| ==> ext[k] != '.' && ext[k] != '/'
    ensures SplitExt(name + "." + ext) == (name, "." + ext)
  {
    var p := name + "." + ext;
    assert p == name + ("." + ext);
    LastIndexOfAppend(name, "." + ext, '.');
    LastIndexOfAppend(name, "." + ext, '/');
    assert '.' in "." + ext;
    assert '/' !in "." + ext;
    assert LastIndexOf("." + ext, '.') == 0;
    var sep := LastIndexOf(name, '/');
    var k :| sep < k < |name| && name[k] != '.';
    assert p[k] == name[k];
    assert ExtStart(p) == |name|;
    assert p[..|name|] == name;
  }

  /** `os.path.join(directory, name)` for one name. */
  function Join(directory: string, name: string): string {
    if |name| > 0 && name[0] == '/' then name
    else if |directory| == 0 || directory[|directory| - 1] == '/' then directory + name
    else directory + "/" + name
  }

  /** A hyperlink: its target and its text. */
  datatype Link = Link(href: string, text: string)

  /** One generated page: the data file it shows, where the page and its plot
      are written, its heading, and its links to the neighbouring pages. */
  datatype Page = Page(
    dataPath: string,
    htmlPath: string,
    plotPath: string,
    title: string,
    previous: Option<Link>,
    next: Option<Link>)

  /** The `IndexError` raised when the index lists a single file: the first
      page looks up a second entry that does not exist. */
  datatype PageError = NoSecondEntry

  /** The page name of an index entry: its stem with `.html` appended. */
  function HtmlName(entry: string): string {
    Stem(entry) + ".html"
  }

  /** The link to the page of an index entry. */
  function LinkTo(entry: string): Link {
    Link(HtmlName(entry), Stem(entry))
  }

  /** The page of entry `i` of an index of at least two entries: the first
      page links forward only, the last backward only, the others both ways. */
  function PageAt(directory: string, entries: seq<string>, i: nat): Page
    requires 2 <= |entries| && i < |entries|
  {
    var stem := Stem(entries[i]);
    var previous := if i == 0 then None else Some(LinkTo(entries[i - 1]));
    var next := if i == 0 || i != |entries| - 1 then Some(LinkTo(entries[i + 1])) else None;
    Page(Join(directory, entries[i]), Join(directory, HtmlName(entries[i])),
         Join(directory, stem + ".png"), stem, previous, next)
  }

  /** The pages of an index of at least two entries, in index order. */
  function Chain(directory: string, entries: seq<string>): (pages: seq<Page>)
    requires 2 <= |entries|
    ensures |pages| == |entries|
    ensures forall i :: 0 <= i < |pages| ==>
      && pages[i].title == Stem(entries[i])
      && pages[i].htmlPath == Join(directory, Stem(entries[i]) + ".html")
      && pages[i].dataPath == Join(directory, entries[i])
      && pages[i].plotPath == Join(directory, Stem(entries[i]) + ".png")
      && (pages[i].previous.Some? <==> i > 0)
      && (pages[i].next.Some? <==> i < |entries| - 1)
    ensures forall i :: 0 < i < |pages| ==>
      pages[i].previous == Some(Link(pages[i - 1].title + ".html", pages[i - 1].title))
    ensures forall i :: 0 <= i < |pages| - 1 ==>
      pages[i].next == Some(Link(pages[i + 1].title + ".html", pages[i + 1].title))
  {
    seq(|entries|, i requires 0 <= i < |entries| => PageAt(directory, entries, i))
  }

  /** The page of an index entry `name.csv` is `name.html` in the same
      directory, headed `name`, and its neighbours link to it by those. */
  lemma CsvEntryPage(directory: string, entries: seq<string>, i: nat, name: string)
    requires 2 <= |entries| && i < |entries|
    requires entries[i] == name + ".csv" && HasBaseName(name)
    ensures Chain(directory, entries)[i].htmlPath == Join(directory, name + ".html")
    ensures Chain(directory, entries)[i].title == name
    ensures i > 0 ==> Chain(directory, entries)[i - 1].next == Some(Link(name + ".html", name))
    ensures i < |entries| - 1 ==> Chain(directory, entries)[i + 1].previous == Some(Link(name + ".html", name))
  {
    assert name + ".csv" == name + "." + "csv";
    StemOfExtended(name, "csv");
  }

  /** `make_html_files` without its I/O: the pages for the lines of the index
      file, each line stripped of surrounding whitespace. No pages for an
      empty index, and the `IndexError` for an index of one line. */
  function MakePages(directory: string, lines: seq<string>): (r: Result<seq<Page>, PageError>)
    ensures |lines| == 0 ==> r == Success([])
    ensures |lines| == 1 ==> r == Failure(NoSecondEntry)
    ensures |lines| >= 2 ==> r == Success(Chain(directory, Entries(lines)))
  {
    var entries := Entries(lines);
    if |entries| == 0 then Success([])
    else if |entries| == 1 then Failure(NoSecondEntry)
    else Success(Chain(directory, entries))
  }

  /** The index entries: the lines of the index file, stripped. */
  function Entries(lines: seq<string>): (entries: seq<string>)
    ensures |entries| == |lines|
    ensures forall i :: 0 <= i < |lines| ==> entries[i] == Text.Strip(lines[i])
  {
    seq(|lines|, i requires 0 <= i < |lines| => Text.Strip(lines[i]))
  }
}

=== FILE: prompts.dfy ===
/** The console validators of the statistician menu. Console input is a
    parameter: the sequence of answers the user types, one per prompt; a
    validator that runs out of answers returns None (where `input` would
    raise `EOFError`). */
module Prompts {
  import opened Wrappers
  import opened Text

  /** `call_input_str`: the integer typed, or 0 when the answer is not an integer. */
  function ReadChoice(answer: string): int {
    match ParseInt(answer)
    case Some(v) => v
    case None => 0
  }

  predicate InRange(v: int, lo: int, hi: int) {
    lo <= v <= hi
  }

  /** Typing a number of at most `MaxStrDigits` digits, with any `IntSpace`
      whitespace around it, selects that number, and a longer one selects 0; anything
      that is not an integer selects 0, which no menu starting at 1 accepts. */
  lemma ReadChoiceOfNumber(pre: string, n: int, post: string, junk: string, lo: int, hi: int)
    requires AllSpace(pre, IntSpace) && AllSpace(post, IntSpace) && ParseInt(junk).None?
    ensures ReadChoice(pre + ShowInt(n) + post) == if DecimalLength(n) <= MaxStrDigits then n else 0
    ensures ReadChoice(junk) == 0
    ensures lo >= 1 ==> !InRange(ReadChoice(junk), lo, hi)
  {
    ParseShowInt(pre, n, post);
  }

  /** `iterative_input_on_error`: asks until the answer reads as a number in
      [lo, hi] and returns that number. */
  method IterativeInputOnError(answers: seq<string>, lo: int, hi: int) returns (r: Option<int>)
    ensures r.Some? ==> InRange(r.value, lo, hi)
    ensures r.Some? ==> exists k :: (0 <= k < |answers| && r.value == ReadChoice(answers[k])
      && forall j :: 0 <= j < k ==> !InRange(ReadChoice(answers[j]), lo, hi))
    ensures r.None? ==> forall k :: 0 <= k < |answers| ==> !InRange(ReadChoice(answers[k]), lo, hi)
  {
    var read := 0;
    while read < |answers|
      invariant 0 <= read <= |answers|
      invariant forall j :: 0 <= j < read ==> !InRange(ReadChoice(answers[j]), lo, hi)
    {
      var value := ReadChoice(answers[read]);
      if InRange(value, lo, hi) {
        return Some(value);
      }
      read := read + 1;
    }
    return None;
  }

  /** `iterative_col_input_check`: asks until the stripped answer is blank or
      names a column, and returns it. */
  method IterativeColInputCheck(columns: seq<string>, answers: seq<string>) returns (r: Option<string>)
    ensures r.Some? ==> r.value == [] || r.value in columns
    ensures r.Some? ==> exists k :: (0 <= k < |answers| && r.value == Strip(answers[k])
      && forall j :: 0 <= j < k ==> Strip(answers[j]) != [] && Strip(answers[j]) !in columns)
    ensures r.None? ==> forall k :: 0 <= k < |answers| ==> Strip(answers[k]) != [] && Strip(answers[k]) !in columns
  {
    var read := 0;
    while read < |answers|
      invariant 0 <= read <= |answers|
      invariant forall j :: 0 <= j < read ==> Strip(answers[j]) != [] && Strip(answers[j]) !in columns
    {
      var input := Strip(answers[read]);
      read := read + 1;
      if input == [] || input in columns {
        return Some(input);
      }
    }
    return None;
  }

  /** `op3_x_iterative_loop`: asks until the answer is an integer. A blank
      answer is asked again, and so is one `int` rejects. */
  function ReadInteger(answers: seq<string>): (r: Option<int>)
    ensures r.Some? ==> exists k :: (0 <= k < |answers| && answers[k] != [] && ParseInt(answers[k]) == r
      && forall j :: 0 <= j < k ==> ParseInt(answers[j]).None?)
    ensures r.None? ==> forall k :: 0 <= k < |answers| ==> ParseInt(answers[k]).None?
  {
    if |answers| == 0 then None
    else if answers[0] != [] && ParseInt(answers[0]).Some? then ParseInt(answers[0])
    else
      var rest := ReadInteger(answers[1..]);
      assert forall k :: 1 <= k < |answers| ==> answers[k] == answers[1..][k - 1];
      assert answers[0] == [] ==> ParseInt(answers[0]).None? by {
        if answers[0] == [] {
          assert !DigitGroups(StripWith([], IntSpace));
        }
      }
      rest
  }
}

=== FILE: seqs.dfy ===
/** Generic sequence operations shared by the table models: filtering,
    mapping, selection of positions and first-occurrence de-duplication,
    together with the facts that tie them to each other. */
module Seqs {

  /** No value occurs twice in `s`. */
  predicate Distinct<T(==)>(s: seq<T>) {
    forall i, j :: 0 <= i < j < |s| ==> s[i] != s[j]
  }

  /** The elements of `s` that satisfy `p`, in their original order. */
  function Filter<T(==)>(s: seq<T>, p: T -> bool): (r: seq<T>)
    ensures |r| <= |s|
    ensures forall k :: 0 <= k < |r| ==> r[k] in s && p(r[k])
    ensures forall i :: 0 <= i < |s| && p(s[i]) ==> s[i] in r
  {
    if |s| == 0 then []
    else
      var init, last := s[..|s| - 1], s[|s| - 1];
      assert s == init + [last];
      Filter(init, p) + (if p(last) then [last] else [])
  }

  /** `f` applied to every element of `s`. */
  function Map<T, U>(s: seq<T>, f: T -> U): (r: seq<U>)
    ensures |r| == |s|
    ensures forall i :: 0 <= i < |s| ==> r[i] == f(s[i])
  {
    seq(|s|, i requires 0 <= i < |s| => f(s[i]))
  }

  /** The positions below `n` that satisfy `p`, in increasing order. */
  function Positions(n: nat, p: nat -> bool): (r: seq<nat>)
    ensures forall k :: 0 <= k < |r| ==> r[k] < n && p(r[k])
    ensures forall k, l :: 0 <= k < l < |r| ==> r[k] < r[l]
    ensures forall i :: 0 <= i < n && p(i) ==> i in r
  {
    if n == 0 then [] else Positions(n - 1, p) + (if p(n - 1) then [n - 1] else [])
  }

  predicate InBounds(idx: seq<nat>, n: nat) {
    forall k :: 0 <= k < |idx| ==> idx[k] < n
  }

  /** The elements of `s` at the positions `idx`, in the order of `idx`. */
  function Select<T>(s: seq<T>, idx: seq<nat>): (r: seq<T>)
    requires InBounds(idx, |s|)
    ensures |r| == |idx|
    ensures forall k :: 0 <= k < |idx| ==> r[k] == s[idx[k]]
  {
    seq(|idx|, k requires 0 <= k < |idx| => s[idx[k]])
  }

  /** Some earlier element of `s` has the same key as `s[i]`: the mask that
      first-occurrence de-duplication drops. */
  predicate IsDuplicate<T, K(==)>(s: seq<T>, i: nat, key: T -> K)
    requires i < |s|
  {
    exists j :: 0 <= j < i && key(s[j]) == key(s[i])
  }

  /** `s` with every element whose key occurred earlier removed. */
  function DedupBy<T, K(==)>(s: seq<T>, key: T -> K): (r: seq<T>)
    ensures |r| <= |s|
  {
    if |s| == 0 then []
    else
      var kept := DedupBy(s[..|s| - 1], key);
      if IsDuplicate(s, |s| - 1, key) then kept else kept + [s[|s| - 1]]
  }

  /** Number of elements whose key occurred earlier. */
  function DuplicateCount<T, K(==)>(s: seq<T>, key: T -> K): nat {
    if |s| == 0 then 0
    else DuplicateCount(s[..|s| - 1], key) + (if IsDuplicate(s, |s| - 1, key) then 1 else 0)
  }

  // ---------------------------------------------------------------------
  // Facts about Positions and Select

  lemma {:induction false} PositionsExt(n: nat, p: nat -> bool, q: nat -> bool)
    requires forall i :: 0 <= i < n ==> p(i) == q(i)
    ensures Positions(n, p) == Positions(n, q)
  {
    if n > 0 {
      PositionsExt(n - 1, p, q);
    }
  }

  lemma SelectPrefix<T>(s: seq<T>, m: nat, idx: seq<nat>)
    requires m <= |s| && InBounds(idx, m)
    ensures Select(s, idx) == Select(s[..m], idx)
  {
  }

  lemma SelectAppend<T>(s: seq<T>, a: seq<nat>, b: seq<nat>)
    requires InBounds(a, |s|) && InBounds(b, |s|)
    ensures InBounds(a + b, |s|)
    ensures Select(s, a + b) == Select(s, a) + Select(s, b)
  {
  }

  /** Filtering by an element predicate selects the positions whose element
      satisfies it. */
  lemma {:induction false} FilterIsSelect<T>(s: seq<T>, p: T -> bool, q: nat -> bool)
    requires forall i :: 0 <= i < |s| ==> q(i) == p(s[i])
    ensures Filter(s, p) == Select(s, Positions(|s|, q))
  {
    if |s| > 0 {
      var n := |s|;
      var init := s[..n - 1];
      assert forall i :: 0 <= i < |init| ==> init[i] == s[i];
      FilterIsSelect(init, p, q);
      var front := Positions(n - 1, q);
      var back: seq<nat> := if q(n - 1) then [n - 1] else [];
      var tail := if p(s[n - 1]) then [s[n - 1]] else [];
      SelectPrefix(s, n - 1, front);
      SelectAppend(s, front, back);
      calc {
        Filter(s, p);
        Filter(init, p) + tail;
        Select(init, front) + tail;
        { assert Select(s, back) == tail; }
        Select(s, front) + Select(s, back);
        Select(s, front + back);
        { assert Positions(n, q) == front + back; }
        Select(s, Positions(n, q));
      }
    }
  }

  /** De-duplication selects exactly the positions that are not duplicates. */
  lemma {:induction false} DedupIsSelect<T, K>(s: seq<T>, key: T -> K, q: nat -> bool)
    requires forall i :: 0 <= i < |s| ==> q(i) == !IsDuplicate(s, i, key)
    ensures DedupBy(s, key) == Select(s, Positions(|s|, q))
  {
    if |s| > 0 {
      var n := |s|;
      var init := s[..n - 1];
      forall i | 0 <= i < n - 1
        ensures q(i) == !IsDuplicate(init, i, key)
      {
        assert init[i] == s[i];
        if IsDuplicate(s, i, key) {
          var j :| 0 <= j < i && key(s[j]) == key(s[i]);
          assert init[j] == s[j];
        }
        if IsDuplicate(init, i, key) {
          var j :| 0 <= j < i && key(init[j]) == key(init[i]);
          assert init[j] == s[j];
        }
      }
      DedupIsSelect(init, key, q);
      var front := Positions(n - 1, q);
      var back: seq<nat> := if q(n - 1) then [n - 1] else [];
      SelectPrefix(s, n - 1, front);
      SelectAppend(s, front, back);
      assert Positions(n, q) == front + back;
      assert Select(s, back) == if q(n - 1) then [s[n - 1]] else [];
    }
  }

  /** The positions of the elements of `s` that satisfy `p`. */
  function Satisfying<T>(s: seq<T>, p: T -> bool): nat -> bool {
    (i: nat) => i < |s| && p(s[i])
  }

  /** The positions of `s` that hold the first occurrence of their key. */
  function FirstOccurrences<T, K(==)>(s: seq<T>, key: T -> K): nat -> bool {
    (i: nat) => i < |s| && !IsDuplicate(s, i, key)
  }

  /** Every key of `s` has a first occurrence, at or before any other. */
  lemma {:induction false} FirstOccurrenceExists<T, K>(s: seq<T>, key: T -> K, i: nat)
    returns (j: nat)
    requires i < |s|
    ensures j <= i && key(s[j]) == key(s[i]) && !IsDuplicate(s, j, key)
  {
    if IsDuplicate(s, i, key) {
      var k :| 0 <= k < i && key(s[k]) == key(s[i]);
      j := FirstOccurrenceExists(s, key, k);
    } else {
      j := i;
    }
  }

  lemma DedupKeysDistinct<T, K>(s: seq<T>, key: T -> K)
    ensures forall i, j :: 0 <= i < j < |DedupBy(s, key)| ==> key(DedupBy(s, key)[i]) != key(DedupBy(s, key)[j])
  {
    var q := FirstOccurrences(s, key);
    DedupIsSelect(s, key, q);
    var pos := Positions(|s|, q);
    var r := DedupBy(s, key);
    forall i, j | 0 <= i < j < |r|
      ensures key(r[i]) != key(r[j])
    {
      assert r[i] == s[pos[i]] && r[j] == s[pos[j]];
      assert pos[i] < pos[j] && q(pos[j]);
      assert !IsDuplicate(s, pos[j], key);
    }
  }

  lemma DedupFromSource<T, K>(s: seq<T>, key: T -> K)
    ensures forall k :: 0 <= k < |DedupBy(s, key)| ==> DedupBy(s, key)[k] in s
  {
    var q := FirstOccurrences(s, key);
    DedupIsSelect(s, key, q);
    var pos := Positions(|s|, q);
    var r := DedupBy(s, key);
    forall k | 0 <= k < |r|
      ensures r[k] in s
    {
      assert r[k] == s[pos[k]];
    }
  }

  lemma DedupCovers<T, K>(s: seq<T>, key: T -> K, i: nat) returns (k: nat)
    requires i < |s|
    ensures k < |DedupBy(s, key)| && key(DedupBy(s, key)[k]) == key(s[i])
  {
    var q := FirstOccurrences(s, key);
    DedupIsSelect(s, key, q);
    var pos := Positions(|s|, q);
    var j := FirstOccurrenceExists(s, key, i);
    assert q(j);
    k :| 0 <= k < |pos| && pos[k] == j;
  }

  /** Some element of `d` has the key of `x`. */
  predicate HasKeyOf<T, K(==)>(d: seq<T>, key: T -> K, x: T) {
    exists k :: 0 <= k < |d| && key(d[k]) == key(x)
  }

  /** De-duplication keeps exactly one element per key, each taken from `s`. */
  lemma DedupByFacts<T, K>(s: seq<T>, key: T -> K)
    ensures forall i, j :: 0 <= i < j < |DedupBy(s, key)| ==> key(DedupBy(s, key)[i]) != key(DedupBy(s, key)[j])
    ensures forall k :: 0 <= k < |DedupBy(s, key)| ==> DedupBy(s, key)[k] in s
    ensures forall i :: 0 <= i < |s| ==> HasKeyOf(DedupBy(s, key), key, s[i])
  {
    DedupKeysDistinct(s, key);
    DedupFromSource(s, key);
    forall i | 0 <= i < |s|
      ensures HasKeyOf(DedupBy(s, key), key, s[i])
    {
      var k := DedupCovers(s, key, i);
    }
  }

  /** The number of duplicates is the number of elements de-duplication removes. */
  lemma {:induction false} DuplicateCountIsRemoved<T, K>(s: seq<T>, key: T -> K)
    ensures DuplicateCount(s, key) == |s| - |DedupBy(s, key)|
  {
    if |s| > 0 {
      DuplicateCountIsRemoved(s[..|s| - 1], key);
    }
  }

  // ---------------------------------------------------------------------
  // Filter and Map respect permutations

  lemma {:induction false} FilterCongruent<T>(s: seq<T>, p: T -> bool, q: T -> bool)
    requires forall i :: 0 <= i < |s| ==> p(s[i]) == q(s[i])
    ensures Filter(s, p) == Filter(s, q)
  {
    if |s| > 0 {
      var init := s[..|s| - 1];
      FilterCongruent(init, p, q);
    }
  }

  lemma {:induction false} FilterAll<T>(s: seq<T>, p: T -> bool)
    requires forall i :: 0 <= i < |s| ==> p(s[i])
    ensures Filter(s, p) == s
  {
    if |s| > 0 {
      var init, last := s[..|s| - 1], s[|s| - 1];
      FilterAll(init, p);
      assert p(last);
      assert s == init + [last];
    }
  }

  /** Taking the middle part out of a sequence takes its elements out of the multiset. */
  lemma MultisetMiddle<T>(a: seq<T>, b: seq<T>, c: seq<T>)
    ensures multiset(a + b + c) == multiset(a + c) + multiset(b)
  {
  }

  /** Removes the element at position `j`, which is `x`. */
  lemma RemoveAt<T>(b: seq<T>, j: nat, x: T)
    requires j < |b| && b[j] == x
    ensures b == b[..j] + [x] + b[j + 1..]
    ensures multiset(b[..j] + b[j + 1..]) == multiset(b) - multiset{x}
  {
    assert b == b[..j] + [x] + b[j + 1..];
  }

  /** Filtering keeps every copy of an element that satisfies `p` and no
      copy of one that does not. */
  lemma {:induction false} FilterMultiset<T>(s: seq<T>, p: T -> bool, x: T)
    ensures multiset(Filter(s, p))[x] == if p(x) then multiset(s)[x] else 0
  {
    if |s| > 0 {
      var init, last := s[..|s| - 1], s[|s| - 1];
      assert s == init + [last];
      FilterMultiset(init, p, x);
    }
  }

  lemma FilterPerm<T>(a: seq<T>, b: seq<T>, p: T -> bool)
    requires multiset(a) == multiset(b)
    ensures multiset(Filter(a, p)) == multiset(Filter(b, p))
  {
    forall x
      ensures multiset(Filter(a, p))[x] == multiset(Filter(b, p))[x]
    {
      FilterMultiset(a, p, x);
      FilterMultiset(b, p, x);
    }
  }

  lemma MapAppend<T, U>(a: seq<T>, b: seq<T>, f: T -> U)
    ensures Map(a + b, f) == Map(a, f) + Map(b, f)
  {
  }

  /** Mapping a sequence with its element at `j` taken out loses one copy of that element's image. */
  lemma MapRemove<T, U>(b: seq<T>, j: nat, f: T -> U)
    requires j < |b|
    ensures multiset(Map(b, f)) == multiset(Map(b[..j] + b[j + 1..], f)) + multiset{f(b[j])}
  {
    var before, after := b[..j], b[j + 1..];
    assert b == before + [b[j]] + after;
    MapAppend(before + [b[j]], after, f);
    MapAppend(before, [b[j]], f);
    MapAppend(before, after, f);
    MultisetMiddle(Map(before, f), [f(b[j])], Map(after, f));
  }

  lemma {:induction false} MapPerm<T, U>(a: seq<T>, b: seq<T>, f: T -> U)
    requires multiset(a) == multiset(b)
    ensures multiset(Map(a, f)) == multiset(Map(b, f))
    decreases |a|
  {
    if |a| == 0 {
      assert |multiset(b)| == 0;
    } else {
      var n := |a| - 1;
      var x := a[n];
      assert x in multiset(b);
      var j :| 0 <= j < |b| && b[j] == x;
      RemoveAt(b, j, x);
      assert a == a[..n] + [x];
      MapPerm(a[..n], b[..j] + b[j + 1..], f);
      MapRemove(b, j, f);
      MapRemove(a, n, f);
      assert a[..n] + a[n + 1..] == a[..n];
    }
  }

  // ---------------------------------------------------------------------
  // Distinctness is a property of the multiset

  lemma {:induction false} DistinctMultiplicity<T>(s: seq<T>)
    requires Distinct(s)
    ensures forall x :: multiset(s)[x] <= 1
  {
    if |s| > 0 {
      var init, last := s[..|s| - 1], s[|s| - 1];
      assert s == init + [last];
      DistinctMultiplicity(init);
      assert last !in init;
    }
  }

  lemma RepeatedMultiplicity<T>(s: seq<T>, i: nat, j: nat)
    requires i < j < |s| && s[i] == s[j]
    ensures multiset(s)[s[i]] >= 2
  {
    assert s == s[..i] + [s[i]] + s[i + 1..j] + [s[j]] + s[j + 1..];
  }

  lemma DistinctPerm<T>(a: seq<T>, b: seq<T>)
    requires multiset(a) == multiset(b) && Distinct(a)
    ensures Distinct(b)
  {
    DistinctMultiplicity(a);
    forall i, j | 0 <= i < j < |b|
      ensures b[i] != b[j]
    {
      if b[i] == b[j] {
        RepeatedMultiplicity(b, i, j);
      }
    }
  }
}

=== FILE: sheet.dfy ===
/** Quality control of a sheet (`is_sheet_usable`): a sheet is a square
    matrix of 0/1 cells in which every 1 is a defect; it passes when it has
    few enough defects for its size. */
module SheetQC {
  import opened Wrappers

  /** The matrix, one inner sequence per row. */
  type Sheet = seq<seq<int>>

  /** The `ValueError`s the check raises. */
  datatype SheetError =
    | NotSquare   // the shape is not n x n
    | NotBinary   // some cell is neither 0 nor 1

  /** Every row has as many cells as there are rows: the shape is n x n. */
  predicate IsSquare(sheet: Sheet) {
    forall i :: 0 <= i < |sheet| ==> |sheet[i]| == |sheet|
  }

  /** Every cell is 0 or 1. */
  predicate IsBinary(sheet: Sheet) {
    forall i, j :: 0 <= i < |sheet| && 0 <= j < |sheet[i]| ==> sheet[i][j] == 0 || sheet[i][j] == 1
  }

  /** Sum of the cells of a row. */
  function RowSum(row: seq<int>): int {
    if |row| == 0 then 0 else RowSum(row[..|row| - 1]) + row[|row| - 1]
  }

  /** `sheet.sum()`: the sum of all cells. */
  function SheetSum(sheet: Sheet): int {
    if |sheet| == 0 then 0 else SheetSum(sheet[..|sheet| - 1]) + RowSum(sheet[|sheet| - 1])
  }

  /** Number of 1-cells of a row. */
  function RowDefects(row: seq<int>): nat {
    if |row| == 0 then 0 else RowDefects(row[..|row| - 1]) + (if row[|row| - 1] == 1 then 1 else 0)
  }

  /** Number of 1-cells (defects) of the sheet. */
  function Defects(sheet: Sheet): nat {
    if |sheet| == 0 then 0 else Defects(sheet[..|sheet| - 1]) + RowDefects(sheet[|sheet| - 1])
  }

  /** Number of cells of the sheet. */
  function Cells(sheet: Sheet): nat {
    if |sheet| == 0 then 0 else Cells(sheet[..|sheet| - 1]) + |sheet[|sheet| - 1]|
  }

  /** `is_sheet_usable`: an error for a sheet that is not square or not
      binary, otherwise whether the defects stay within the allowance: at
      most 4 on a sheet of at most 9 cells, at most 8 on a larger one. */
  function IsSheetUsable(sheet: Sheet): (r: Result<bool, SheetError>)
    ensures !IsSquare(sheet) ==> r == Failure(NotSquare)
    ensures IsSquare(sheet) && !IsBinary(sheet) ==> r == Failure(NotBinary)
    ensures IsSquare(sheet) && IsBinary(sheet) && Cells(sheet) <= 9 ==> r == Success(Defects(sheet) <= 4)
    ensures IsSquare(sheet) && IsBinary(sheet) && Cells(sheet) > 9 ==> r == Success(Defects(sheet) <= 8)
  {
    if !IsSquare(sheet) then Failure(NotSquare)
    else if !IsBinary(sheet) then Failure(NotBinary)
    else
      var size := |sheet| * |sheet|;
      var totalDefects := SheetSum(sheet);
      SquareCells(sheet);
      SumCountsDefects(sheet);
      if size <= 9 then Success(totalDefects <= 4) else Success(totalDefects <= 8)
  }

  // ---------------------------------------------------------------------
  // Lemmas

  lemma {:induction false} RowSumCountsDefects(row: seq<int>)
    requires forall j :: 0 <= j < |row| ==> row[j] == 0 || row[j] == 1
    ensures RowSum(row) == RowDefects(row)
  {
    if |row| > 0 {
      RowSumCountsDefects(row[..|row| - 1]);
    }
  }

  /** On a binary sheet the sum of the cells is the number of 1-cells. */
  lemma {:induction false} SumCountsDefects(sheet: Sheet)
    requires IsBinary(sheet)
    ensures SheetSum(sheet) == Defects(sheet)
  {
    if |sheet| > 0 {
      var init := sheet[..|sheet| - 1];
      assert forall i :: 0 <= i < |init| ==> init[i] == sheet[i];
      SumCountsDefects(init);
      var last := sheet[|sheet| - 1];
      assert forall j :: 0 <= j < |last| ==> last[j] == sheet[|sheet| - 1][j];
      RowSumCountsDefects(last);
    }
  }

  lemma {:induction false} CellsOfRows(sheet: Sheet, w: nat)
    requires forall i :: 0 <= i < |sheet| ==> |sheet[i]| == w
    ensures Cells(sheet) == |sheet| * w
  {
    if |sheet| > 0 {
      CellsOfRows(sheet[..|sheet| - 1], w);
    }
  }

  /** An n x n sheet has n * n cells. */
  lemma SquareCells(sheet: Sheet)
    requires IsSquare(sheet)
    ensures Cells(sheet) == |sheet| * |sheet|
  {
    CellsOfRows(sheet, |sheet|);
  }

  lemma {:induction false} RowDefectsBound(row: seq<int>)
    ensures RowDefects(row) <= |row|
  {
    if |row| > 0 {
      RowDefectsBound(row[..|row| - 1]);
    }
  }

  /** A sheet cannot have more defects than cells. */
  lemma {:induction false} DefectsBound(sheet: Sheet)
    ensures Defects(sheet) <= Cells(sheet)
  {
    if |sheet| > 0 {
      DefectsBound(sheet[..|sheet| - 1]);
      RowDefectsBound(sheet[|sheet| - 1]);
    }
  }

  lemma {:induction false} RowDefectsClear(row: seq<int>, j: nat)
    requires j < |row| && row[j] == 1
    ensures RowDefects(row[j := 0]) == RowDefects(row) - 1
  {
    var n := |row|;
    var row' := row[j := 0];
    assert row'[..n - 1] == if j == n - 1 then row[..n - 1] else row[..n - 1][j := 0];
    if j < n - 1 {
      RowDefectsClear(row[..n - 1], j);
    }
  }

  lemma {:induction false} DefectsReplaceRow(sheet: Sheet, i: nat, row: seq<int>)
    requires i < |sheet|
    ensures Defects(sheet[i := row]) == Defects(sheet) - RowDefects(sheet[i]) + RowDefects(row)
  {
    var n := |sheet|;
    var sheet' := sheet[i := row];
    if i == n - 1 {
      assert sheet'[..n - 1] == sheet[..n - 1];
    } else {
      assert sheet'[..n - 1] == sheet[..n - 1][i := row];
      DefectsReplaceRow(sheet[..n - 1], i, row);
    }
  }

  /** Repairing a defect of a passing sheet keeps it passing. */
  lemma ClearingDefectKeepsPass(sheet: Sheet, i: nat, j: nat)
    requires IsSheetUsable(sheet) == Success(true)
    requires i < |sheet| && j < |sheet[i]| && sheet[i][j] == 1
    ensures IsSheetUsable(sheet[i := sheet[i][j := 0]]) == Success(true)
  {
    var repaired := sheet[i := sheet[i][j := 0]];
    assert IsSquare(repaired);
    assert IsBinary(repaired);
    SquareCells(sheet);
    SquareCells(repaired);
    RowDefectsClear(sheet[i], j);
    DefectsReplaceRow(sheet, i, sheet[i][j := 0]);
  }

  /** Every valid sheet of at most 2 x 2 passes: it has at most 4 cells. */
  lemma SmallSheetsPass(sheet: Sheet)
    requires IsSquare(sheet) && IsBinary(sheet) && |sheet| <= 2
    ensures IsSheetUsable(sheet) == Success(true)
  {
    SquareCells(sheet);
    DefectsBound(sheet);
  }

  /** The example sheet of the script holds a 2, so the check raises. */
  lemma ExampleSheetRejected()
    ensures IsSheetUsable([[1, 0, 0], [1, 0, 1], [0, 0, 2]]) == Failure(NotBinary)
  {
  }
}

=== FILE: sorting.dfy ===
/** Sorting a sequence by a total preorder: the ascending sorts that the
    combined table applies to its rows (by key) and to its column names. */
module Sorting {

  /** `le` compares every pair of values and is transitive. */
  ghost predicate TotalPreorder<T(!new)>(le: (T, T) -> bool) {
    && (forall a, b :: le(a, b) || le(b, a))
    && (forall a, b, c :: le(a, b) && le(b, c) ==> le(a, c))
  }

  /** `s` is in ascending order under `le`. */
  predicate Sorted<T>(s: seq<T>, le: (T, T) -> bool) {
    forall i, j :: 0 <= i < j < |s| ==> le(s[i], s[j])
  }

  lemma SortedTail<T>(s: seq<T>, le: (T, T) -> bool)
    requires Sorted(s, le) && |s| > 0
    ensures Sorted(s[1..], le)
  {
  }

  /** The head of a sorted `s` that `x` does not precede lies below every
      element of `s[1..]` with `x` inserted. */
  lemma HeadBelowInsert<T(!new)>(x: T, s: seq<T>, rest: seq<T>, le: (T, T) -> bool)
    requires TotalPreorder(le) && Sorted(s, le) && |s| > 0 && !le(x, s[0])
    requires multiset(rest) == multiset(s[1..]) + multiset{x}
    ensures forall j :: 0 <= j < |rest| ==> le(s[0], rest[j])
  {
    forall j | 0 <= j < |rest|
      ensures le(s[0], rest[j])
    {
      var z := rest[j];
      assert z in multiset(rest);
      if z != x {
        assert z in multiset(s[1..]);
        var k :| 0 <= k < |s[1..]| && s[1..][k] == z;
        assert s[k + 1] == z;
      }
    }
  }

  /** `x` inserted into the sorted `s` before the first element it precedes. */
  function Insert<T(!new)>(x: T, s: seq<T>, le: (T, T) -> bool): (r: seq<T>)
    requires TotalPreorder(le) && Sorted(s, le)
    ensures multiset(r) == multiset(s) + multiset{x}
    ensures Sorted(r, le)
  {
    if |s| == 0 then [x]
    else if le(x, s[0]) then
      assert forall j :: 0 <= j < |s| ==> le(x, s[j]);
      [x] + s
    else
      assert s == [s[0]] + s[1..];
      SortedTail(s, le);
      var rest := Insert(x, s[1..], le);
      HeadBelowInsert(x, s, rest, le);
      [s[0]] + rest
  }

  /** Insertion sort: an ascending permutation of `s`. */
  function Sort<T(!new)>(s: seq<T>, le: (T, T) -> bool): (r: seq<T>)
    requires TotalPreorder(le)
    ensures multiset(r) == multiset(s)
    ensures Sorted(r, le)
  {
    if |s| == 0 then []
    else
      assert s == [s[0]] + s[1..];
      Insert(s[0], Sort(s[1..], le), le)
  }
}

=== FILE: text.dfy ===
/** The pieces of Python's `str` behaviour the scripts rely on: whitespace
    stripping (`str.strip()`), the ordering of strings used by `sorted`, and
    the conversion `int(text)` of a typed answer. */
module Text {
  import opened Wrappers

  /** Python's `str.isspace()` for one character (the Unicode whitespace set). */
  predicate IsSpace(c: char) {
    var n := c as int;
    || n == 0x20 || 0x09 <= n <= 0x0D || 0x1C <= n <= 0x1F || n == 0x85 || n == 0xA0
    || n == 0x1680 || 0x2000 <= n <= 0x200A || n == 0x2028 || n == 0x2029
    || n == 0x202F || n == 0x205F || n == 0x3000
  }

  /** The whitespace `int(text)` skips around a number. CPython turns every
      non-ASCII space into `' '`, copies ASCII characters unchanged, and then
      skips only the C-locale spaces (`' '`, `\t`, `\n`, `\v`, `\f`,
      `\r`). The ASCII separators U+001C to U+001F, which `str.isspace()`
      accepts, are therefore not skipped. */
  predicate IntSpace(c: char) {
    IsSpace(c) && !(0x1C <= c as int <= 0x1F)
  }

  /** Every character of `s` is in the whitespace set `space`. */
  predicate AllSpace(s: string, space: char -> bool) {
    forall k :: 0 <= k < |s| ==> space(s[k])
  }

  /** `s` neither starts nor ends with a character of `space`. */
  predicate Trimmed(s: string, space: char -> bool) {
    |s| == 0 || (!space(s[0]) && !space(s[|s| - 1]))
  }

  function StripLeft(s: string, space: char -> bool): (r: string)
    ensures |r| <= |s|
    ensures |r| == 0 || !space(r[0])
  {
    if |s| > 0 && space(s[0]) then StripLeft(s[1..], space) else s
  }

  function StripRight(s: string, space: char -> bool): (r: string)
    ensures |r| <= |s|
    ensures |r| == 0 || !space(r[|r| - 1])
    ensures |r| > 0 ==> r[0] == s[0]
  {
    if |s| > 0 && space(s[|s| - 1]) then StripRight(s[..|s| - 1], space) else s
  }

  /** `s` without its leading and trailing characters of `space`. */
  function StripWith(s: string, space: char -> bool): (r: string)
    ensures Trimmed(r, space)
    ensures |r| <= |s|
  {
    StripRight(StripLeft(s, space), space)
  }

  /** `str.strip()`: `s` without its leading and trailing whitespace. */
  function Strip(s: string): string {
    StripWith(s, IsSpace)
  }

  lemma {:induction false} StripLeftPast(pre: string, x: string, space: char -> bool)
    requires AllSpace(pre, space) && (|x| == 0 || !space(x[0]))
    ensures StripLeft(pre + x, space) == x
  {
    if |pre| > 0 {
      assert (pre + x)[1..] == pre[1..] + x;
      StripLeftPast(pre[1..], x, space);
    } else {
      assert pre + x == x;
    }
  }

  lemma {:induction false} StripRightPast(x: string, post: string, space: char -> bool)
    requires AllSpace(post, space) && (|x| == 0 || !space(x[|x| - 1]))
    ensures StripRight(x + post, space) == x
  {
    if |post| > 0 {
      var init := post[..|post| - 1];
      assert (x + post)[..|x + post| - 1] == x + init;
      StripRightPast(x, init, space);
    } else {
      assert x + post == x;
    }
  }

  /** Stripping removes exactly the whitespace around a trimmed text, for the
      whitespace set of `str.strip()` as for that of `int()`. */
  lemma StripAround(pre: string, t: string, post: string, space: char -> bool)
    requires AllSpace(pre, space) && AllSpace(post, space) && Trimmed(t, space)
    ensures StripWith(pre + t + post, space) == t
  {
    if |t| == 0 {
      assert pre + t + post == pre + post + "";
      assert AllSpace(pre + post, space);
      StripLeftPast(pre + post, "", space);
    } else {
      assert pre + t + post == pre + (t + post);
      StripLeftPast(pre, t + post, space);
      StripRightPast(t, post, space);
    }
  }

  /** `str.strip()` removes an information separator that `int()` keeps, so
      `int` refuses a number it precedes. */
  lemma IntKeepsSeparators()
    ensures Strip([0x1C as char] + "7") == "7"
    ensures ParseInt([0x1C as char] + "7") == None
  {
    var s := [0x1C as char] + "7";
    assert s[1..] == "7";
    assert StripLeft("7", IsSpace) == "7";
    assert StripWith(s, IntSpace) == s;
  }

  // ---------------------------------------------------------------------
  // Ordering of strings

  /** Python's `<=` on strings: lexicographic by code point, a proper
      prefix before any of its extensions. */
  predicate LexLe(a: string, b: string)
    decreases |a|
  {
    |a| == 0 || (|b| > 0 && (a[0] < b[0] || (a[0] == b[0] && LexLe(a[1..], b[1..]))))
  }

  lemma {:induction false} LexLeTotal(a: string, b: string)
    ensures LexLe(a, b) || LexLe(b, a)
    decreases |a|
  {
    if |a| > 0 && |b| > 0 && a[0] == b[0] {
      LexLeTotal(a[1..], b[1..]);
    }
  }

  lemma {:induction false} LexLeTransitive(a: string, b: string, c: string)
    requires LexLe(a, b) && LexLe(b, c)
    ensures LexLe(a, c)
    decreases |a|
  {
    if |a| > 0 && a[0] == b[0] && b[0] == c[0] {
      LexLeTransitive(a[1..], b[1..], c[1..]);
    }
  }

  lemma {:induction false} LexLeAntisymmetric(a: string, b: string)
    requires LexLe(a, b) && LexLe(b, a)
    ensures a == b
    decreases |a|
  {
    if |a| > 0 {
      LexLeAntisymmetric(a[1..], b[1..]);
      assert a == [a[0]] + a[1..] && b == [b[0]] + b[1..];
    }
  }

  // ---------------------------------------------------------------------
  // int(text)

  predicate IsDigit(c: char) {
    '0' <= c <= '9'
  }

  /** A decimal literal as `int` reads it: digits, with single underscores
      allowed between two digits. */
  predicate DigitGroups(d: string) {
    && |d| > 0
    && IsDigit(d[0]) && IsDigit(d[|d| - 1])
    && (forall k :: 0 <= k < |d| ==> IsDigit(d[k]) || d[k] == '_')
    && (forall k :: 0 <= k < |d| - 1 ==> !(d[k] == '_' && d[k + 1] == '_'))
  }

  /** The number the digits of `d` spell, underscores ignored. */
  function DigitsValue(d: string): nat {
    if |d| == 0 then 0
    else
      var c := d[|d| - 1];
      if IsDigit(c) then DigitsValue(d[..|d| - 1]) * 10 + (c as int - '0' as int)
      else DigitsValue(d[..|d| - 1])
  }

  /** The number of digits of a literal, underscores not counted. */
  function DigitCount(d: string): (n: nat)
    ensures n <= |d|
  {
    if |d| == 0 then 0
    else DigitCount(d[..|d| - 1]) + (if IsDigit(d[|d| - 1]) then 1 else 0)
  }

  /** `sys.int_info.default_max_str_digits`: `int` refuses a decimal literal
      with more digits than this. */
  const MaxStrDigits: nat := 4300

  /** Python's `int(text)` for ASCII decimal text: surrounding `IntSpace`
      whitespace ignored, an optional sign, then digit groups of at most
      `MaxStrDigits` digits; None where `int` raises `ValueError`. */
  function ParseInt(text: string): Option<int> {
    ParseSigned(StripWith(text, IntSpace))
  }

  /** An optional sign followed by digit groups, nothing around them. */
  function ParseSigned(t: string): Option<int> {
    if |t| > 0 && (t[0] == '+' || t[0] == '-') then
      var d := t[1..];
      var v: int := DigitsValue(d);
      if DigitGroups(d) && DigitCount(d) <= MaxStrDigits then Some(if t[0] == '-' then -v else v) else None
    else if DigitGroups(t) && DigitCount(t) <= MaxStrDigits then Some(DigitsValue(t))
    else None
  }

  /** The decimal spelling of a natural number. */
  function ShowNat(n: nat): (s: string)
    ensures |s| > 0 && forall k :: 0 <= k < |s| ==> IsDigit(s[k])
  {
    var c := ('0' as int + n % 10) as char;
    if n < 10 then [c] else ShowNat(n / 10) + [c]
  }

  /** `str(n)`: the decimal spelling of an integer. */
  function ShowInt(n: int): string {
    if n < 0 then "-" + ShowNat(-n) else ShowNat(n)
  }

  lemma {:induction false} DigitsValueOfShowNat(n: nat)
    ensures DigitsValue(ShowNat(n)) == n
  {
    if n >= 10 {
      DigitsValueOfShowNat(n / 10);
      var s := ShowNat(n);
      assert s[..|s| - 1] == ShowNat(n / 10);
    }
  }

  lemma DigitGroupsOfShowNat(m: nat)
    ensures DigitGroups(ShowNat(m))
  {
  }

  lemma {:induction false} DigitCountOfDigits(s: string)
    requires forall k :: 0 <= k < |s| ==> IsDigit(s[k])
    ensures DigitCount(s) == |s|
  {
    if |s| > 0 {
      DigitCountOfDigits(s[..|s| - 1]);
    }
  }

  /** The number of digits `str` writes for `n`, its sign not counted. */
  function DecimalLength(n: int): nat {
    |ShowNat(if n < 0 then -n else n)|
  }

  /** A literal of digit groups reads as its value, negated after a minus
      sign, unless it has too many digits. */
  lemma ReadDigits(d: string)
    requires DigitGroups(d)
    ensures ParseSigned(d) == if DigitCount(d) <= MaxStrDigits then Some(DigitsValue(d) as int) else None
    ensures ParseSigned("-" + d) == if DigitCount(d) <= MaxStrDigits then Some(-(DigitsValue(d) as int)) else None
  {
    assert ("-" + d)[1..] == d;
  }

  lemma ShowIntReads(n: int)
    ensures ParseSigned(ShowInt(n)) == if DecimalLength(n) <= MaxStrDigits then Some(n) else None
  {
    var m: nat := if n < 0 then -n else n;
    var digits := ShowNat(m);
    DigitsValueOfShowNat(m);
    DigitGroupsOfShowNat(m);
    DigitCountOfDigits(digits);
    ReadDigits(digits);
  }

  /** Reading back what `str` writes gives the number, whatever `IntSpace`
      whitespace surrounds it, as long as it has at most `MaxStrDigits` digits; a longer
      one is refused. */
  lemma ParseShowInt(pre: string, n: int, post: string)
    requires AllSpace(pre, IntSpace) && AllSpace(post, IntSpace)
    ensures ParseInt(pre + ShowInt(n) + post) == if DecimalLength(n) <= MaxStrDigits then Some(n) else None
  {
    var s := ShowInt(n);
    var m: nat := if n < 0 then -n else n;
    assert IsDigit(ShowNat(m)[0]) && IsDigit(ShowNat(m)[|ShowNat(m)| - 1]);
    assert Trimmed(s, IntSpace);
    StripAround(pre, s, post, IntSpace);
    ShowIntReads(n);
  }
}

=== FILE: wrappers.dfy ===
/** Failure-compatible wrappers used by every model in this project. */
module Wrappers {

  /** A value that may be absent: a missing table cell, an answer that was never typed. */
  datatype Option<+T> = None | Some(value: T)

  /** The outcome of an operation that either returns a value or raises an error. */
  datatype Result<+R, +E> = Success(value: R) | Failure(error: E)
}
